=== FILE: README.md ===
# Customer-check reconciliation, modelled in Dafny

This project models the logic of a compliance front end. Operators import
customers from a CSV file or type one in. Each imported row is matched against
a reference population of watch-list and customer-base records. The matched
rows become customer-check entries in a ledger. The operator filters, sorts,
selects, deletes, exports and finally submits that ledger as one transaction.
Three small list pages sit next to it: the general list, the applications and
the transaction table.

Every handler is modelled as a pure function from the old state to the new one.
Records are immutable datatypes, optional fields are `Option`, and collections
are `seq` and `set`.

| file | module | what it models |
|---|---|---|
| `optional.dfy` | `Optional` | `Option` and `Result` |
| `seqs.dfy` | `Seqs` | `filter`, `findIndex`, subsequences, distinctness |
| `text.dfy` | `Text` | `trim`, `split`/`join`, `includes`, upper/lower case, the quote strip, `<` on strings |
| `types.dfy` | `Types` | the records of `src/types/index.ts` |
| `csv.dfy` | `Csv` | `parseCSV` |
| `matcher.dfy` | `Matcher` | `findMatches`: identifier, exact-name and partial (containment-ratio) matching |
| `builder.dfy` | `Builder` | file upload, the dialog's row selection, `handleAddSelected`, `handleManualAdd` |
| `view.dfy` | `View` | the table filter, the stable sort, `handleSort` |
| `ledger.dfy` | `Ledger` | the page state and its handlers: merge, remove, toggle, select-all, delete-selected, submit, detail edit and delete |
| `export.dfy` | `Export` | the CSV export, and its round trip through the parser |
| `general_list.dfy` | `GeneralList` | the general-list filter, edit and delete |
| `applications.dfy` | `Applications` | approve, reject, status filter, status counts |
| `transactions.dfy` | `Transactions` | approve and reject, both of which remove the transaction |
| `scenarios.dfy`, `ledger_scenarios.dfy` | `Scenarios`, `LedgerScenarios` | worked examples on concrete data |

Modelling decisions:

- **Scores are exact integers.** The partial score `min/max*100` is kept as
  the exact ratio `Ratio(min, max)`.
  - "score >= 50" is `2*min >= max`.
  - "better than" compares cross-multiplied products.
  - `Math.round` is `(200*min + max) div (2*max)`.
  - Two empty names give `0/0`, which is NaN in JavaScript. NaN never
    qualifies, so `Qualifies` requires a positive denominator.
- **Case mapping is partial.** `Upper` and `Lower` map ASCII and the basic
  Cyrillic block (U+0400-U+045F). Other characters are left unchanged.
- **`trim`** removes the ECMAScript white-space and line-terminator set.
- **Filters keep order and repetitions.** Every `filter` is stated three
  ways: the result is a subsequence of the input, every kept element passes,
  and the length is the input length minus the elements that fail.
  `Seqs.FilterUnique` proves that these three facts determine the result
  exactly, repeated elements included.
- **Dates are compared as strings.** The date sort compares the raw
  `createdDate` strings with JavaScript `<`, modelled as `Text.LexLess`. This
  agrees with `Date.getTime` for ISO dates. All other sort columns are
  lower-cased first.
- **A row without a name fails the whole batch.** A line shorter than the name
  column gives an undefined name. Upper-casing it throws at
  src/components/ImportCustomersModal.tsx:101, and the upload handler catches
  the error. `Matcher.FindMatches` therefore returns `Err(MissingName(i))` for
  the first such row.
- **Dialog selection keeps insertion order.** The dialog's selection is a
  JavaScript `Set` of row indices, so it is a duplicate-free `seq<nat>`.
  Entries are built in the order the indices were inserted.
- **The page selection is a `set<string>`** of entry keys.
- **Outside inputs are parameters.** Today's date, the current user and the
  fresh transaction number are passed in.
- **`confirm` is taken as accepted.** An `alert` becomes a returned value:
  `NothingToImport`, `NothingToSend`, `None`, or the duplicate count of
  `Ledger.MergeOutcome`.

Behaviours of the code a reader might not expect:

- **A partial match can score 100.**
  - The exact-name test compares the record's raw `searchName` with the
    upper-cased row name. The partial test upper-cases `searchName` first.
    So a lower-case search name that equals the row name misses the exact
    test and then scores 100 as a partial match (`Scenarios.PartialHundred`).
  - Rounding can also give 100, for example for 199/200.
- **A data line is dropped exactly when its first cell is empty.** Whether the
  resolved name is empty does not matter.
- **Submitting with no selection empties the ledger.** It also removes rows a
  filter hides, which were never sent (`LedgerScenarios.SubmitWithoutSelectionClearsHidden`).
- **A submit with a selection removes selected rows that were not sent.** It
  removes every selected entry, including hidden ones
  (`Ledger.SubmitDropsHiddenSelected`).
- **Selection keys can collide.** The key joins the transaction number,
  customer number and date with dashes, so two different entries can share a
  key (`LedgerScenarios.KeyCollision`). When two visible rows share a key,
  "select all" selects fewer keys than there are visible rows. After that,
  every further click re-selects the same keys instead of clearing them
  (`Ledger.SelectAllSharedKeyNeverClears`). A row's Delete button removes the
  first ledger entry with the row's key
  (src/pages/CustomerCheckPage.tsx:533, :581), so with two entries sharing a
  key, Delete on the second row removes the first. `Ledger.RemoveAt` models
  the removal by index itself.
- **Missing identifiers match each other.** The identifier test compares
  `row.customerId`, which the parser never sets. A record without a customer
  number or a customer id is therefore an "exact" hit for every row that
  carries a customer number (`Scenarios.UndefinedIdsMatch`).
- **The detail modal's delete leaves stale keys.** It does not prune the
  selection, so the selection can name keys of entries that are gone
  (`LedgerScenarios.DetailDeleteLeavesStaleKey`).

## Model

| member | source | states |
|---|---|---|
| Csv.ColumnOf | src/components/ImportCustomersModal.tsx:65-69 | the column is the first header cell accepted by the test, and -1 exactly when no cell is accepted |
| Csv.Lines | src/components/ImportCustomersModal.tsx:60 | the lines are, in order and with their repeats, exactly the newline-separated pieces that are not blank after trimming: a subsequence of the pieces, holding every non-blank piece, as many as the pieces minus the blank ones |
| Csv.HeaderCells | src/components/ImportCustomersModal.tsx:64 | there is one header cell per comma-separated piece of the header line, and cell i is piece i trimmed and lower-cased |
| Csv.Cells | src/components/ImportCustomersModal.tsx:73 | there is at least one cell, one per comma-separated piece of the line, and cell i is piece i trimmed with an edge double quote stripped at each end |
| Csv.OtherFields | src/components/ImportCustomersModal.tsx:86-90 | a header text is a key exactly when some column with that text is neither the name nor the customer-number column and has a non-empty value |
| Csv.OtherFieldsLastWins | src/components/ImportCustomersModal.tsx:86-90 | when a header text repeats, its value comes from the last such leftover column |
| Csv.MakeRow | src/components/ImportCustomersModal.tsx:76-90 | the name is the cell of the name column, or cell 0 without a name header; the customer number is set exactly when its cell is non-empty; the customer id is never set; the leftover fields are collected |
| Csv.ParseCsv | src/components/ImportCustomersModal.tsx:59-96 | text with no non-blank line gives no rows; otherwise there is one row per non-blank line after the header whose first cell is non-empty, so the header never yields a row |
| Csv.ParseCsvRows | src/components/ImportCustomersModal.tsx:71-93 | row i is built, in input order, from the i-th kept data line and the header line |
| Csv.ParsedRowFacts | src/components/ImportCustomersModal.tsx:74-83 | no parsed row has a customer id; a customer number is never empty; without a name header every name is non-empty |
| Csv.SharedColumn | src/components/ImportCustomersModal.tsx:65-83 | when one header such as "customer name" is both the name and the customer-number column, a present customer number equals the name |
| Csv.NoNameHeader | src/components/ImportCustomersModal.tsx:77-90 | without a name header, column 0 is the name and is also copied into the leftover fields |
| Text.StripQuotes | src/components/ImportCustomersModal.tsx:73 | at most one character goes from each end, each end independently: a string without edge quotes is unchanged, a leading quote alone or a trailing quote alone is dropped, and a quoted string loses both quotes |
| Text.Split | src/components/ImportCustomersModal.tsx:60 | there is at least one piece, no piece holds the separator, and joining the pieces gives back the text |
| Text.SplitJoin | src/components/ImportCustomersModal.tsx:64 | splitting undoes joining when no piece holds the separator |
| Text.TrimBlank | src/components/ImportCustomersModal.tsx:60 | a line trims to the empty string exactly when all its characters are white space |
| Text.TrimSlice | src/components/ImportCustomersModal.tsx:64 | the trimmed text occurs inside the original text |
| Text.ContainsAt | src/components/ImportCustomersModal.tsx:145 | `includes` holds exactly when the substring occurs at some position |
| Text.LexLessTransitive | src/pages/CustomerCheckPage.tsx:193-194 | string `<` is transitive |
| Text.LexLessTotal | src/pages/CustomerCheckPage.tsx:193-195 | of two different strings, one is less than the other |
| Matcher.LengthRatio | src/components/ImportCustomersModal.tsx:146-148 | the ratio's numerator and denominator are the two lengths, the shorter on top, so it never exceeds 1; the denominator is zero only for two empty names |
| Matcher.PartialRatio | src/components/ImportCustomersModal.tsx:139-149 | containment by the upper-cased name scores the length ratio of the two names; failing that, containment by the upper-cased search name scores the length ratio of those two; with neither the score is zero and does not qualify |
| Matcher.Percent | src/components/ImportCustomersModal.tsx:162 | the result is the rounding of 100 times the ratio, with halves rounded up |
| Matcher.PercentBounds | src/components/ImportCustomersModal.tsx:151-162 | a score that reaches the 50% floor rounds into [50, 100] |
| Matcher.ExceedsPastBound | src/components/ImportCustomersModal.tsx:151 | a score above the current best is above every score the best beat or tied |
| Matcher.BestPartial | src/components/ImportCustomersModal.tsx:139-156 | the scan finds nothing exactly when no record qualifies; otherwise it returns the first record attaining the highest qualifying score |
| Matcher.FirstBestUnique | src/components/ImportCustomersModal.tsx:151-155 | at most one record is the first record with the highest qualifying score, so the scan's winner is well defined |
| Matcher.MatchRow | src/components/ImportCustomersModal.tsx:100-164 | the result carries its row; it has a record exactly when it has a score exactly when it is not "none"; exact results score 100, partial ones lie in [50, 100]; the record comes from the population |
| Matcher.FindMatches | src/components/ImportCustomersModal.tsx:99-165 | the batch fails exactly when some row has no name, naming the first such row; otherwise result i is the match of row i |
| Matcher.KeyMatchFirst | src/components/ImportCustomersModal.tsx:106-122 | a row with a customer number or id is matched exactly, with score 100, to the first record passing the four-way identifier test, whatever the names |
| Matcher.NameMatchFirst | src/components/ImportCustomersModal.tsx:124-136 | failing that, the first record whose upper-cased name or raw search name equals the upper-cased row name is an exact match with score 100 |
| Matcher.PartialMatchBest | src/components/ImportCustomersModal.tsx:138-163 | failing both, the result is partial exactly when some record reaches the floor, and then holds the first best record and its rounded score |
| Scenarios.ExactByNumber | src/components/ImportCustomersModal.tsx:106-122 | "Ivanov I." with customer number 111 is an exact match to the record numbered 111 |
| Scenarios.PartialBySurname | src/components/ImportCustomersModal.tsx:138-162 | "Ivanov" against "Ivanov Ivan" is a partial match scoring 55 |
| Scenarios.NoMatchForStranger | src/components/ImportCustomersModal.tsx:138-163 | "Smith" against "Ivanov Ivan" has no match and no score |
| Scenarios.UndefinedIdsMatch | src/components/ImportCustomersModal.tsx:107-113 | a record without a customer id matches every row that has a customer number, because both ids are undefined |
| Scenarios.PartialHundred | src/components/ImportCustomersModal.tsx:125-162 | a record whose lower-case search name equals the row name misses the exact test and becomes a partial match scoring 100 |
| Builder.LoadFile | src/components/ImportCustomersModal.tsx:167-191 | an empty parse gives nothing to import; otherwise the upload fails exactly when matching the parsed rows fails, with its error, and loads the match results of the parsed rows with every row selected |
| Builder.ToggleRow | src/components/ImportCustomersModal.tsx:193-203 | the toggled index changes membership and every other index keeps it; a new index goes to the end; a removed index leaves the others in order, one fewer when the selection has no repeats |
| Builder.ToggleRowTwice | src/components/ImportCustomersModal.tsx:193-203 | toggling an index twice restores the selected indices, and restores their order when the index was not selected |
| Builder.SelectAllRows | src/components/ImportCustomersModal.tsx:205-211 | a selection as large as the results is cleared; otherwise the selection becomes every row index in order |
| Builder.FullSelectionHoldsAll | src/components/ImportCustomersModal.tsx:206 | a duplicate-free selection of n in-range indices out of n holds every index, so the size test means "all selected" |
| Builder.ListGroupFor | src/components/ImportCustomersModal.tsx:238 | the list group is kept exactly for the black list with a non-empty group |
| Builder.EntryFor | src/components/ImportCustomersModal.tsx:222-254 | a matched row takes the record's name and search name; an unmatched row keeps its name and upper-cases it; the customer number is the number if set, else the id if set, else "N/A"; the origin falls back to "Import"; the list group is the dialog's, kept only for the black list |
| Builder.AddSelected | src/components/ImportCustomersModal.tsx:213-257 | nothing is added without a selection; otherwise there is one entry per selected index, in selection order |
| Builder.ManualAdd | src/components/ImportCustomersModal.tsx:266-290 | refused exactly when the trimmed name is empty; otherwise the entry has the trimmed name and its upper case, the trimmed number or "N/A", the origin or "Manual", and the form's list group, kept only for the black list |
| Builder.ManualIsUnmatchedRow | src/components/ImportCustomersModal.tsx:273-284 | a manual entry is exactly the entry built for an unmatched imported row holding the trimmed name and number |
| View.NotBeforeTransitive | src/pages/CustomerCheckPage.tsx:181-196 | "need not come before" is transitive for the comparator |
| View.InsertByKey | src/pages/CustomerCheckPage.tsx:181-196 | one insertion step adds exactly the new entry |
| View.InsertSorted | src/pages/CustomerCheckPage.tsx:181-196 | inserting into a sorted sequence keeps it sorted |
| View.InsertKeyClass | src/pages/CustomerCheckPage.tsx:181-196 | inserting keeps the order among entries with equal keys and puts the new entry first among them |
| View.SortEntries | src/pages/CustomerCheckPage.tsx:181-196 | the sort is a permutation of its input and its output is ordered by the active field and direction |
| View.SortStable | src/pages/CustomerCheckPage.tsx:181-196 | entries with equal sort keys keep their ledger order |
| View.ViewOf | src/pages/CustomerCheckPage.tsx:159-199 | the view holds exactly the entries passing every active filter, as a sorted permutation of them, and is no longer than the ledger |
| View.ViewStable | src/pages/CustomerCheckPage.tsx:159-199 | within the view, entries with equal sort keys appear in ledger order |
| View.UnfilteredView | src/pages/CustomerCheckPage.tsx:160-178 | without filters the view holds every entry |
| View.PassesOwnFields | src/pages/CustomerCheckPage.tsx:160-178 | an entry passes the search and column filters built from its own customer number, name and source |
| View.HandleSort | src/pages/CustomerCheckPage.tsx:133-140 | a click on the sorted column flips the direction; a click on another column sorts it ascending |
| View.HandleSortTwice | src/pages/CustomerCheckPage.tsx:133-140 | two clicks on the sorted column restore the sort |
| Ledger.Merge | src/pages/CustomerCheckPage.tsx:143-156 | the ledger keeps its prefix and gains, in order, the incoming entries whose customer number is new, repeats inside the batch included; the duplicate count is the number of incoming entries whose number is already present; selection, transaction number, filter and sort are unchanged |
| Ledger.MergeTwice | src/pages/CustomerCheckPage.tsx:143-156 | importing the same batch again appends nothing and counts every entry as a duplicate |
| Ledger.MergeKeepsSelection | src/pages/CustomerCheckPage.tsx:143-156 | a merge keeps every selected key a key of the ledger |
| Ledger.EntryKey | src/pages/CustomerCheckPage.tsx:95 | the key is the transaction number, a dash, the customer number, a dash and the date |
| Ledger.SameKey | src/pages/CustomerCheckPage.tsx:95 | entries agreeing on transaction number, customer number and date share a key |
| Ledger.RemoveAt | src/pages/CustomerCheckPage.tsx:81-92 | an in-range index removes that entry, shifting the rest, and drops its key from the selection; other indices change nothing |
| Ledger.RemoveKeepsSelection | src/pages/CustomerCheckPage.tsx:81-92 | removing one row keeps every selected key a key of the ledger |
| Ledger.ToggleSelect | src/pages/CustomerCheckPage.tsx:98-109 | the row's key changes membership and every other key keeps it; entries, transaction number, filter and sort are unchanged |
| Ledger.ToggleSelectTwice | src/pages/CustomerCheckPage.tsx:98-109 | toggling a row twice restores the page |
| Ledger.ToggleKeepsSelection | src/pages/CustomerCheckPage.tsx:98-109 | toggling a ledger row keeps every selected key a key of the ledger |
| Ledger.SelectAll | src/pages/CustomerCheckPage.tsx:111-118 | the selection is cleared when it is as large as the view and holds every visible key; otherwise it becomes exactly the visible keys; entries, transaction number, filter and sort are unchanged |
| Ledger.SelectAllKeepsSelection | src/pages/CustomerCheckPage.tsx:111-118 | after select-all every selected key is a key of the ledger |
| Ledger.SelectAllTwice | src/pages/CustomerCheckPage.tsx:111-118 | when the visible keys are distinct, a second click clears what the first selected |
| Ledger.SelectAllSharedKeyNeverClears | src/pages/CustomerCheckPage.tsx:111-118 | when two visible rows share a key, a click from a state that is not all selected selects the visible keys, and every further click selects the same keys again instead of clearing |
| Ledger.DeleteSelected | src/pages/CustomerCheckPage.tsx:120-130 | nothing changes without a selection; otherwise the entries with unselected keys stay, in order and with their repeats, every entry with a selected key goes, and the selection empties; transaction number, filter and sort are unchanged |
| Ledger.DeleteKeepsSelection | src/pages/CustomerCheckPage.tsx:120-130 | delete-selected keeps the selection valid |
| Ledger.Chosen | src/pages/CustomerCheckPage.tsx:202-204 | the rows acted on are the selected visible rows in view order, or the whole view when nothing is selected |
| Ledger.Submit | src/pages/CustomerCheckPage.tsx:201-222 | with nothing to send nothing changes; otherwise the chosen rows go under the current number, a fresh number is taken, the selection empties, the ledger keeps, in order, exactly its unselected entries, or nothing when nothing was selected, and filter and sort are unchanged |
| Ledger.SubmitSends | src/pages/CustomerCheckPage.tsx:201-212 | a visible row that is selected, or any visible row without a selection, makes the submit go through and is sent |
| Ledger.SubmitKeepsSelection | src/pages/CustomerCheckPage.tsx:214-220 | after a submit the selection is valid |
| Ledger.SubmitDropsHiddenSelected | src/pages/CustomerCheckPage.tsx:215-217 | a selected entry hidden by the filter is removed although it was not sent |
| Ledger.DetailEdit | src/pages/CustomerCheckPage.tsx:603-618 | entries whose customer number equals the record's number or id take its name and search name; every other entry, the selection, transaction number, filter and sort are unchanged |
| Ledger.DetailEditKeepsKeys | src/pages/CustomerCheckPage.tsx:603-618 | the edit changes no entry key |
| Ledger.DetailDelete | src/pages/CustomerCheckPage.tsx:622-631 | an unknown `uqId` changes nothing; otherwise only entries of the ledger remain; the selection, transaction number, filter and sort are untouched |
| Ledger.DetailDeleteFirst | src/pages/CustomerCheckPage.tsx:623-630 | with the first record of that `uqId` found, the entries carrying its customer number or id are removed and all the others stay, in order and with their repeats |
| LedgerScenarios.SubmitSelectedPair | src/pages/CustomerCheckPage.tsx:201-222 | with "111" and "222" selected next to "333", a submit leaves exactly "333" |
| LedgerScenarios.SubmitWithoutSelectionClearsHidden | src/pages/CustomerCheckPage.tsx:218-219 | without a selection, a submit empties the ledger, including a row the filter hides |
| LedgerScenarios.MergeKeepsBatchDuplicates | src/pages/CustomerCheckPage.tsx:145-146 | two incoming entries with the same new customer number are both appended |
| LedgerScenarios.KeyCollision | src/pages/CustomerCheckPage.tsx:95 | two different entries can share a key |
| LedgerScenarios.DetailDeleteLeavesStaleKey | src/pages/CustomerCheckPage.tsx:622-631 | the detail delete can leave a selected key with no entry behind it |
| Export.ExportFields | src/pages/CustomerCheckPage.tsx:237-247 | an exported line has the nine cells of the header in its order: transaction number, name, customer number, source name, transaction type name, origin source, list group or empty, created date and created user |
| Export.ExportCsv | src/pages/CustomerCheckPage.tsx:235-248 | the exported text starts with the header line and is just that line for no entries; when no cell holds a newline, splitting it at newlines gives the header line followed by one comma-joined line per entry, in order |
| Export.ExportSelected | src/pages/CustomerCheckPage.tsx:224-248 | nothing is exported when no row is chosen; otherwise the chosen rows are exported |
| Export.ExportColumns | src/pages/CustomerCheckPage.tsx:236 | the parser reads the exported header with the name in column 1 and the customer number in column 2 |
| Export.ExportedLines | src/pages/CustomerCheckPage.tsx:235-248 | when no cell of any entry holds a newline, the parser sees the header line followed by one line per entry, in order, since every exported line holds a comma and so is never blank |
| Export.ExportRoundTrip | src/pages/CustomerCheckPage.tsx:235-248 | re-importing an export yields one row per entry, in order, with its name and customer number, for entries with a non-empty transaction number and customer number, no newline in any cell, and no comma, edge white space or edge quote in the first three cells |
| GeneralList.FilterCustomers | src/pages/GeneralList.tsx:38-58 | the result keeps, in order and with their repeats, exactly the customers passing every filter: search name, source, status, origin and the inclusive date bounds |
| GeneralList.DateBounds | src/pages/GeneralList.tsx:51-56 | with only dates set, a customer is listed exactly when dateFrom <= createdDate <= dateTo as strings |
| GeneralList.UnfilteredList | src/pages/GeneralList.tsx:38-58 | with every filter empty the list is unchanged |
| GeneralList.FilterCustomersIdempotent | src/pages/GeneralList.tsx:38-58 | filtering twice is filtering once |
| GeneralList.EditCustomer | src/pages/GeneralList.tsx:107-113 | exactly the customers with the edited `uqId` are replaced; the length is unchanged |
| GeneralList.EditTwice | src/pages/GeneralList.tsx:107-113 | editing twice with the same record is editing once |
| GeneralList.DeleteCustomer | src/pages/GeneralList.tsx:114-116 | exactly the customers with other `uqId`s remain, in order and with their repeats |
| GeneralList.DeleteAfterEdit | src/pages/GeneralList.tsx:107-116 | deleting a record makes an earlier edit of it irrelevant |
| GeneralList.DeleteAbsent | src/pages/GeneralList.tsx:114-116 | deleting an absent `uqId` changes nothing |
| Applications.SetStatus | src/pages/Applications.tsx:18-38 | applications with the id get the new status and nothing else changes; length and order are kept |
| Applications.Approve | src/pages/Applications.tsx:18-27 | approve sets 'approved' on every application with the id and changes no other field |
| Applications.Reject | src/pages/Applications.tsx:29-38 | reject sets 'rejected' on every application with the id and changes no other field |
| Applications.UnknownIdUnchanged | src/pages/Applications.tsx:19-23 | an unknown id leaves the list unchanged |
| Applications.SetStatusIdempotent | src/pages/Applications.tsx:19-23 | approving or rejecting twice is doing it once |
| Applications.LastDecisionWins | src/pages/Applications.tsx:18-38 | the later of approve and reject decides |
| Applications.FilterApplications | src/pages/Applications.tsx:40-45 | "All" returns every application; otherwise exactly those with the status remain, in order and with their repeats |
| Applications.CounterMatchesFilter | src/pages/Applications.tsx:40-48 | each status counter equals the number of rows its filter button lists |
| Applications.CountsBounded | src/pages/Applications.tsx:47-48 | pending count plus approved count is at most the number of applications |
| Applications.CountsPartition | src/pages/Applications.tsx:47-48 | pending, approved and rejected counts add up to the number of applications |
| Applications.ApprovePending | src/pages/Applications.tsx:18-27 | after approving an id, the pending count is the number of pending applications with other ids |
| Transactions.RemoveTransaction | src/pages/TransactionTable.tsx:17-29 | exactly the transactions with other numbers remain, in order and with their repeats |
| Transactions.ApproveTransaction | src/pages/TransactionTable.tsx:17-22 | approve keeps, in order, exactly the transactions with other numbers |
| Transactions.RejectTransaction | src/pages/TransactionTable.tsx:24-29 | reject keeps, in order, exactly the transactions with other numbers |
| Transactions.RejectIsApprove | src/pages/TransactionTable.tsx:17-29 | reject has the same effect on the table as approve |
| Transactions.RemoveIdempotent | src/pages/TransactionTable.tsx:18-20 | removing twice is removing once |
| Transactions.RemoveUnknown | src/pages/TransactionTable.tsx:18-20 | an unknown number leaves the table unchanged |
| Transactions.RemoveCount | src/pages/TransactionTable.tsx:18-20 | the table shrinks by exactly the number of transactions carrying the number |

## Left out

- Rendering, CSS, routing and role-based navigation. These are presentation only, and so are the match badges of the detail modal.
- The import-data modal (src/components/ImportDataModal.tsx). Its file path is a stub, and its manual path only builds a record keyed on the clock.
- The mock data (src/data/mockData.ts). The reference population is a parameter, and the examples use their own small records.
- Reading the uploaded file, the download of the exported file, and the clock and random generator behind the transaction number. These are I/O: the text, the date and the fresh number are parameters, and `Export.ExportSelected` returns the file contents.
- `alert` and `confirm`. Confirmations are taken as accepted. Alerts become returned outcomes or counts, and their texts are not modelled.
- Floating point. Scores are exact ratios, so `.5` boundary cases that IEEE arithmetic might round differently are idealised.
- UTF-16. JavaScript strings are sequences of UTF-16 code units, while a Dafny `char` is a Unicode scalar value. For text outside the Basic Multilingual Plane, such as an emoji in a name, `.length`, `<` and the score's length ratio therefore differ from the model.
- Full Unicode case mapping and `Date` parsing. `Upper` and `Lower` cover ASCII and basic Cyrillic only, and dates compare as strings.
- `handleView` and `handleEdit` of the customer-check page. They only open the detail modal.
- Export.ExportRoundTrip: does not state what happens to the other seven cells. It assumes that the transaction number and customer number are non-empty, that no cell holds a newline, and that the first three cells hold no comma, edge white space or edge quote. An empty transaction number makes the parser drop the line, and an empty customer number reads back as absent. Real entries always meet the non-empty condition: the transaction number starts with `TX-`, and the customer number falls back to "N/A". The export does no quoting, so other entries do not survive a re-import.
- Csv.ParseCsv: states the number of rows; what each row holds is stated by `Csv.ParseCsvRows` and `Csv.MakeRow`.
- React's state batching and re-render timing. Each handler is one atomic transition, and the view is recomputed from the state whenever it is read.

=== FILE: applications.dfy ===
/** The applications page: approving and rejecting applications, the status
    filter and the status counts. */
module Applications {
  import opened Seqs
  import opened Types

  /** Every application with that `id` gets the new status; nothing else
      changes. */
  function SetStatus(apps: seq<Application>, id: string, status: AppStatus): (r: seq<Application>)
    ensures |r| == |apps|
    ensures forall i :: 0 <= i < |apps| && apps[i].id == id ==> r[i] == apps[i].(status := status)
    ensures forall i :: 0 <= i < |apps| && apps[i].id != id ==> r[i] == apps[i]
  {
    seq(|apps|, i requires 0 <= i < |apps| => if apps[i].id == id then apps[i].(status := status) else apps[i])
  }

  /** `handleApprove`. */
  function Approve(apps: seq<Application>, id: string): (r: seq<Application>)
    ensures |r| == |apps|
    ensures forall i :: 0 <= i < |apps| ==> r[i].status == (if apps[i].id == id then Approved else apps[i].status)
    ensures forall i :: 0 <= i < |apps| ==> r[i].(status := apps[i].status) == apps[i]
  {
    SetStatus(apps, id, Approved)
  }

  /** `handleReject`. */
  function Reject(apps: seq<Application>, id: string): (r: seq<Application>)
    ensures |r| == |apps|
    ensures forall i :: 0 <= i < |apps| ==> r[i].status == (if apps[i].id == id then Rejected else apps[i].status)
    ensures forall i :: 0 <= i < |apps| ==> r[i].(status := apps[i].status) == apps[i]
  {
    SetStatus(apps, id, Rejected)
  }

  /** An unknown id changes nothing. */
  lemma UnknownIdUnchanged(apps: seq<Application>, id: string, status: AppStatus)
    requires forall i :: 0 <= i < |apps| ==> apps[i].id != id
    ensures SetStatus(apps, id, status) == apps
  {
  }

  /** Approving twice is approving once; the same holds for rejecting. */
  lemma SetStatusIdempotent(apps: seq<Application>, id: string, status: AppStatus)
    ensures SetStatus(SetStatus(apps, id, status), id, status) == SetStatus(apps, id, status)
  {
  }

  /** The last decision on an id is the one that stays. */
  lemma LastDecisionWins(apps: seq<Application>, id: string)
    ensures Approve(Reject(apps, id), id) == Approve(apps, id)
    ensures Reject(Approve(apps, id), id) == Reject(apps, id)
  {
  }

  /** The status filter buttons: every status, or one. */
  datatype StatusFilter = AllStatuses | OnlyStatus(status: AppStatus)

  function HasStatus(status: AppStatus): Application -> bool {
    (a: Application) => a.status == status
  }

  /** `filteredApplications`. */
  function FilterApplications(apps: seq<Application>, f: StatusFilter): (r: seq<Application>)
    ensures f == AllStatuses ==> r == apps
    ensures f.OnlyStatus? ==> IsSubsequence(r, apps)
    ensures f.OnlyStatus? ==> forall a :: a in r <==> a in apps && a.status == f.status
    ensures f.OnlyStatus? ==> forall i :: 0 <= i < |r| ==> r[i].status == f.status
    ensures f.OnlyStatus? ==> |r| == |apps| - |Filter(apps, LacksStatus(f.status))|
  {
    match f
    case AllStatuses => apps
    case OnlyStatus(s) =>
      FilterIsSubsequence(apps, HasStatus(s));
      FilterPartition(apps, HasStatus(s), LacksStatus(s));
      Filter(apps, HasStatus(s))
  }

  function LacksStatus(status: AppStatus): Application -> bool {
    (a: Application) => a.status != status
  }

  /** Each counter shows as many applications as its filter button lists. */
  lemma CounterMatchesFilter(apps: seq<Application>, status: AppStatus)
    ensures |FilterApplications(apps, OnlyStatus(status))| == CountStatus(apps, status)
  {
  }

  /** The number of applications with a status, as the page's counters
      compute it. */
  function CountStatus(apps: seq<Application>, status: AppStatus): nat {
    |Filter(apps, HasStatus(status))|
  }

  /** `pendingCount + approvedCount` never exceeds the number of
      applications: the rejected count makes up the rest. */
  lemma CountsBounded(apps: seq<Application>)
    ensures CountStatus(apps, Pending) + CountStatus(apps, Approved) <= |apps|
  {
    CountsPartition(apps);
  }

  /** The three counts add up to the number of applications. */
  lemma {:induction false} CountsPartition(apps: seq<Application>)
    ensures CountStatus(apps, Pending) + CountStatus(apps, Approved) + CountStatus(apps, Rejected) == |apps|
  {
    if |apps| > 0 {
      CountsPartition(apps[1..]);
    }
  }

  /** Approving moves every application with that id out of the pending
      count: afterwards exactly the pending applications with other ids are
      counted. */
  lemma {:induction false} ApprovePending(apps: seq<Application>, id: string)
    ensures CountStatus(Approve(apps, id), Pending) ==
      |Filter(apps, (a: Application) => a.status == Pending && a.id != id)|
  {
    if |apps| > 0 {
      ApprovePending(apps[1..], id);
      assert Approve(apps, id)[1..] == Approve(apps[1..], id);
    }
  }
}

=== FILE: builder.dfy ===
/** The rest of the customer import dialog: loading a file, the row
    selection, and turning selected match results or the manual form into
    customer-check entries. */
module Builder {
  import opened Optional
  import opened Seqs
  import opened Text
  import opened Types
  import opened Csv
  import opened Matcher

  /** What the page passes to the dialog: the current transaction number,
      the form's defaults and the acting user. */
  datatype ImportDefaults = ImportDefaults(
    txNo: string,
    source: Source,
    txType: TxType,
    originSource: string,
    listGroup: Option<string>,
    user: string)

  /** The outcome of loading a file's text. */
  datatype Upload =
    | NothingToImport
    | UploadFailed(error: MatchError)
    | Loaded(results: seq<MatchResult>, selection: seq<nat>)

  /** Every row index `0 .. n-1`, in order. */
  function AllRows(n: nat): (rows: seq<nat>)
    ensures |rows| == n && Distinct(rows)
    ensures forall i :: 0 <= i < n ==> rows[i] == i
  {
    seq(n, i requires 0 <= i < n => i)
  }

  /** `handleFileUpload` after the file is read: parse, match, and select
      every row. */
  function LoadFile(text: string, pop: seq<Customer>): (u: Upload)
    ensures u == NothingToImport <==> ParseCsv(text) == []
    ensures u.UploadFailed? ==> exists i :: 0 <= i < |ParseCsv(text)| && ParseCsv(text)[i].name.None?
    ensures u.Loaded? ==>
      && |u.results| == |ParseCsv(text)| > 0
      && u.selection == AllRows(|u.results|)
      && forall i :: 0 <= i < |u.results| ==> u.results[i].row == ParseCsv(text)[i] && u.results[i].row.name.Some?
    ensures u.Loaded? ==> FindMatches(ParseCsv(text), pop) == Ok(u.results)
    ensures u.UploadFailed? ==> FindMatches(ParseCsv(text), pop) == Err(u.error)
    ensures ParseCsv(text) != [] && FindMatches(ParseCsv(text), pop).Ok? ==> u.Loaded?
  {
    var rows := ParseCsv(text);
    if |rows| == 0 then NothingToImport
    else match FindMatches(rows, pop)
      case Err(e) => UploadFailed(e)
      case Ok(results) => Loaded(results, AllRows(|results|))
  }

  /** `handleToggleSelect` of the dialog: the selection is a JavaScript
      `Set`, so it keeps insertion order; a new index goes to the end. */
  function ToggleRow(selection: seq<nat>, index: nat): (r: seq<nat>)
    ensures index in r <==> index !in selection
    ensures forall x :: x != index ==> (x in r <==> x in selection)
    ensures Distinct(selection) ==> Distinct(r)
    ensures index !in selection ==> r == selection + [index]
    ensures index in selection ==> IsSubsequence(r, selection)
    ensures index in selection && Distinct(selection) ==> |r| == |selection| - 1
  {
    if index in selection then
      FilterDistinct(selection, x => x != index);
      FilterIsSubsequence(selection, x => x != index);
      FilterPartition(selection, x => x != index, x => x == index);
      DistinctOccurrence(selection, index);
      Filter(selection, x => x != index)
    else
      var r := selection + [index];
      assert forall x :: x in r <==> x in selection || x == index;
      r
  }

  /** A value occurs once in a sequence without repetitions. */
  lemma {:induction false} DistinctOccurrence(s: seq<nat>, x: nat)
    ensures Distinct(s) && x in s ==> |Filter(s, y => y == x)| == 1
  {
    if |s| > 0 && Distinct(s) && x in s {
      assert Distinct(s[1..]);
      if s[0] == x {
        assert x !in s[1..];
        FilterNone(s[1..], y => y == x);
      } else {
        DistinctOccurrence(s[1..], x);
      }
    }
  }

  /** Toggling the same row twice restores the selected rows; when the row
      was not selected, it restores the order as well. */
  lemma ToggleRowTwice(selection: seq<nat>, index: nat)
    ensures forall x :: x in ToggleRow(ToggleRow(selection, index), index) <==> x in selection
    ensures index !in selection ==> ToggleRow(ToggleRow(selection, index), index) == selection
  {
    if index !in selection {
      var r := selection + [index];
      assert Filter(r, x => x != index) == Filter(selection, x => x != index) + Filter([index], x => x != index) by {
        FilterAppend(selection, [index], x => x != index);
      }
      FilterAll(selection, x => x != index);
    }
  }

  /** `handleSelectAll` of the dialog: clears when the selection has as many
      rows as there are results, otherwise selects every row. */
  function SelectAllRows(selection: seq<nat>, n: nat): (r: seq<nat>)
    ensures |selection| == n ==> r == []
    ensures |selection| != n ==> forall i :: 0 <= i < n ==> i in r
    ensures |selection| != n ==> r == AllRows(n)
  {
    if |selection| == n then []
    else
      var r := AllRows(n);
      forall i | 0 <= i < n
        ensures i in r
      {
        assert r[i] == i;
      }
      r
  }

  /** With distinct in-range indices the size test is exact: a selection of
      `n` rows out of `n` holds every row. */
  lemma FullSelectionHoldsAll(selection: seq<nat>, n: nat)
    requires Distinct(selection) && |selection| == n
    requires forall i :: 0 <= i < |selection| ==> selection[i] < n
    ensures forall i :: 0 <= i < n ==> i in selection
  {
    var rows := AllRows(n);
    var chosen := Elements(selection);
    var all := Elements(rows);
    DistinctElements(selection);
    DistinctElements(rows);
    forall x | x in chosen
      ensures x in all
    {
      assert rows[x] == x;
    }
    assert |all - chosen| == |all| - |chosen| == 0;
    forall i | 0 <= i < n
      ensures i in selection
    {
      assert rows[i] == i;
      assert i in all;
    }
  }

  /** `a || b || fallback` on optional strings. */
  function FirstTruthy(a: Option<string>, b: Option<string>, fallback: string): string {
    if Truthy(a) then a.value else if Truthy(b) then b.value else fallback
  }

  /** `s || fallback` on strings. */
  function OrElse(s: string, fallback: string): string {
    if s != "" then s else fallback
  }

  /** `no` is the first truthy of the number and the id, or "N/A" when
      neither is set. */
  predicate PreferredNo(no: string, number: Option<string>, id: Option<string>) {
    && (Truthy(number) ==> no == number.value)
    && (!Truthy(number) && Truthy(id) ==> no == id.value)
    && (!Truthy(number) && !Truthy(id) ==> no == "N/A")
  }

  /** The list group is kept only for the black list, and only when set. */
  function ListGroupFor(source: Source, group: Option<string>): (g: Option<string>)
    ensures g.Some? <==> source == BlackList && Truthy(group)
    ensures g.Some? ==> g == group
  {
    if source == BlackList && Truthy(group) then group else None
  }

  /** The entry for one selected result: a matched row takes the record's
      name, search name and identifier; an unmatched row keeps its own name. */
  function EntryFor(m: MatchResult, d: ImportDefaults, today: string): (e: CheckEntry)
    requires m.row.name.Some?
    ensures e.txNo == d.txNo && e.createdDate == today && e.createdUser == d.user
    ensures e.source == d.source && e.transactionType == d.txType
    ensures e.originSource != "" && (d.originSource != "" ==> e.originSource == d.originSource)
    ensures e.customerNo != ""
    ensures e.listGroup.Some? <==> d.source == BlackList && Truthy(d.listGroup)
    ensures m.matched.Some? ==> e.name == m.matched.value.name && e.searchName == m.matched.value.searchName
    ensures d.originSource == "" ==> e.originSource == "Import"
    ensures e.listGroup.Some? ==> e.listGroup == d.listGroup
    ensures m.matched.Some? ==> PreferredNo(e.customerNo, m.matched.value.customerNumber, m.matched.value.customerId)
    ensures m.matched.None? ==> e.name == m.row.name.value && e.searchName == Upper(e.name)
    ensures m.matched.None? ==> PreferredNo(e.customerNo, m.row.customerNo, m.row.customerId)
  {
    var customerNo :=
      if m.matched.Some? then FirstTruthy(m.matched.value.customerNumber, m.matched.value.customerId, "N/A")
      else FirstTruthy(m.row.customerNo, m.row.customerId, "N/A");
    var name := if m.matched.Some? then m.matched.value.name else m.row.name.value;
    var searchName := if m.matched.Some? then m.matched.value.searchName else Upper(m.row.name.value);
    CheckEntry(d.txNo, name, customerNo, searchName, today, d.user, d.source, d.txType,
      OrElse(d.originSource, "Import"), ListGroupFor(d.source, d.listGroup))
  }

  /** `handleAddSelected`: nothing when no row is selected; otherwise one
      entry per selected index, in the order the indices were selected. */
  function AddSelected(results: seq<MatchResult>, selection: seq<nat>, d: ImportDefaults, today: string)
    : (r: Option<seq<CheckEntry>>)
    requires forall i :: 0 <= i < |selection| ==> selection[i] < |results|
    requires forall i :: 0 <= i < |results| ==> results[i].row.name.Some?
    ensures r.None? <==> |selection| == 0
    ensures r.Some? ==> |r.value| == |selection|
    ensures r.Some? ==> forall i :: 0 <= i < |selection| ==> r.value[i] == EntryFor(results[selection[i]], d, today)
  {
    if |selection| == 0 then None
    else Some(seq(|selection|, i requires 0 <= i < |selection| => EntryFor(results[selection[i]], d, today)))
  }

  /** The manual-entry form of the dialog. */
  datatype ManualForm = ManualForm(
    name: string,
    customerNo: string,
    source: Source,
    txType: TxType,
    originSource: string,
    listGroup: string)

  /** `handleManualAdd`: refused when the trimmed name is empty; otherwise
      one entry with the trimmed name, its upper-case search name, and the
      defaults "N/A" and "Manual". */
  function ManualAdd(f: ManualForm, txNo: string, user: string, today: string): (r: Option<CheckEntry>)
    ensures r.None? <==> Trim(f.name) == ""
    ensures r.Some? ==> var e := r.value;
      && e.name == Trim(f.name) && e.name != "" && e.searchName == Upper(e.name)
      && e.txNo == txNo && e.createdUser == user && e.createdDate == today
      && e.source == f.source && e.transactionType == f.txType
      && e.customerNo != "" && (Trim(f.customerNo) != "" ==> e.customerNo == Trim(f.customerNo))
      && e.originSource != "" && (f.originSource != "" ==> e.originSource == f.originSource)
      && (e.listGroup.Some? <==> f.source == BlackList && f.listGroup != "")
      && (Trim(f.customerNo) == "" ==> e.customerNo == "N/A")
      && (f.originSource == "" ==> e.originSource == "Manual")
      && (e.listGroup.Some? ==> e.listGroup == Some(f.listGroup))
  {
    var name := Trim(f.name);
    if name == "" then None
    else Some(CheckEntry(txNo, name, OrElse(Trim(f.customerNo), "N/A"), Upper(name), today, user,
      f.source, f.txType, OrElse(f.originSource, "Manual"),
      ListGroupFor(f.source, Some(f.listGroup))))
  }

  /** The manual form is normalised like an unmatched imported row: its
      entry is the one `handleAddSelected` builds for a row holding the
      trimmed name and number, with "Manual" as the origin default. */
  lemma ManualIsUnmatchedRow(f: ManualForm, txNo: string, user: string, today: string)
    requires Trim(f.name) != ""
    ensures var no := Trim(f.customerNo);
      var row := ImportedRow(Some(Trim(f.name)), if no == "" then None else Some(no), None, map[]);
      var d := ImportDefaults(txNo, f.source, f.txType, OrElse(f.originSource, "Manual"), Some(f.listGroup), user);
      ManualAdd(f, txNo, user, today) == Some(EntryFor(MatchResult(row, None, NoMatch, None), d, today))
  {
  }
}

=== FILE: csv.dfy ===
/** The CSV parser of the customer import dialog: text to imported rows, with
    the header line deciding which column is the name and which the customer
    number. */
module Csv {
  import opened Optional
  import opened Seqs
  import opened Text
  import opened Types

  /** One parsed data line. `name` is absent when the line is shorter than
      the name column; `customerId` is part of the record but never set. */
  datatype ImportedRow = ImportedRow(
    name: Option<string>,
    customerNo: Option<string>,
    customerId: Option<string>,
    otherFields: map<string, string>)

  /** The line filter of the parser, and its complement. */
  function NonBlank(): string -> bool {
    (line: string) => Trim(line) != ""
  }

  function Blank(): string -> bool {
    (line: string) => Trim(line) == ""
  }

  /** The lines of the text that are not blank after trimming, in order and
      with their repeats: together with the subsequence and membership
      clauses, the count pins the result down (`Seqs.FilterUnique`). */
  function Lines(text: string): (lines: seq<string>)
    ensures forall i :: 0 <= i < |lines| ==> Trim(lines[i]) != "" && '\n' !in lines[i]
    ensures forall l :: l in lines <==> l in Split(text, '\n') && Trim(l) != ""
    ensures IsSubsequence(lines, Split(text, '\n'))
    ensures |lines| == |Split(text, '\n')| - |Filter(Split(text, '\n'), Blank())|
  {
    FilterIsSubsequence(Split(text, '\n'), NonBlank());
    FilterPartition(Split(text, '\n'), NonBlank(), Blank());
    Filter(Split(text, '\n'), NonBlank())
  }

  /** Header cells: trimmed and lower-cased. */
  function HeaderCells(line: string): (header: seq<string>)
    ensures |header| == |Split(line, ',')|
    ensures forall i :: 0 <= i < |header| ==> header[i] == Lower(Trim(Split(line, ',')[i]))
  {
    var parts := Split(line, ',');
    seq(|parts|, i requires 0 <= i < |parts| => Lower(Trim(parts[i])))
  }

  /** Data cells: trimmed, then stripped of an edge double quote at each end. */
  function Cells(line: string): (values: seq<string>)
    ensures |values| == |Split(line, ',')| >= 1
    ensures forall i :: 0 <= i < |values| ==> values[i] == StripQuotes(Trim(Split(line, ',')[i]))
  {
    var parts := Split(line, ',');
    seq(|parts|, i requires 0 <= i < |parts| => StripQuotes(Trim(parts[i])))
  }

  predicate IsNameHeader(h: string) {
    Contains(h, "name") || Contains(h, "имя")
  }

  predicate IsCustomerNoHeader(h: string) {
    || Contains(h, "customer") || Contains(h, "number") || Contains(h, "id")
    || Contains(h, "клиент") || Contains(h, "номер")
  }

  /** `findIndex`: the first header cell accepted by `p`, or -1. */
  function ColumnOf(header: seq<string>, p: string -> bool): (i: int)
    ensures -1 <= i < |header|
    ensures i >= 0 ==> p(header[i]) && forall j :: 0 <= j < i ==> !p(header[j])
    ensures i == -1 <==> forall j :: 0 <= j < |header| ==> !p(header[j])
  {
    match Find(header, p)
    case Some(i) => i
    case None => -1
  }

  /** The first accepted header cell is the column found. */
  lemma ColumnAt(header: seq<string>, p: string -> bool, i: nat)
    requires i < |header| && p(header[i])
    requires forall j :: 0 <= j < i ==> !p(header[j])
    ensures ColumnOf(header, p) == i
  {
  }

  function NameColumn(header: seq<string>): int {
    ColumnOf(header, IsNameHeader)
  }

  function CustomerNoColumn(header: seq<string>): int {
    ColumnOf(header, IsCustomerNoHeader)
  }

  /** `values[i]`: undefined outside the array. */
  function At(values: seq<string>, i: int): Option<string> {
    if 0 <= i < |values| then Some(values[i]) else None
  }

  /** Column `idx` goes to `otherFields`: it is neither the name column `ni`
      nor the customer-number column `ci`, and its value is present and
      non-empty. */
  predicate KeepsColumn(ni: int, ci: int, values: seq<string>, idx: int) {
    idx != ni && idx != ci && Truthy(At(values, idx))
  }

  /** The leftover columns among the first `n`, keyed by header text; when a
      header text repeats, the later column wins. */
  function OtherFields(header: seq<string>, values: seq<string>, ni: int, ci: int, n: nat): (m: map<string, string>)
    requires n <= |header|
    ensures forall k :: k in m <==> exists idx :: 0 <= idx < n && header[idx] == k && KeepsColumn(ni, ci, values, idx)
  {
    if n == 0 then map[]
    else
      var m := OtherFields(header, values, ni, ci, n - 1);
      if KeepsColumn(ni, ci, values, n - 1) then m[header[n - 1] := values[n - 1]] else m
  }

  /** Column `idx` is the last of the first `n` leftover columns headed `k`. */
  predicate LastKept(header: seq<string>, values: seq<string>, ni: int, ci: int, n: nat, k: string, idx: int)
    requires n <= |header|
  {
    && 0 <= idx < n && header[idx] == k && KeepsColumn(ni, ci, values, idx)
    && forall j :: idx < j < n && header[j] == k ==> !KeepsColumn(ni, ci, values, j)
  }

  /** A repeated header text keeps the value of its last leftover column. */
  lemma {:induction false} OtherFieldsLastWins(header: seq<string>, values: seq<string>, ni: int, ci: int, n: nat, k: string)
    requires n <= |header|
    requires k in OtherFields(header, values, ni, ci, n)
    ensures exists idx :: LastKept(header, values, ni, ci, n, k, idx) && OtherFields(header, values, ni, ci, n)[k] == values[idx]
  {
    var m := OtherFields(header, values, ni, ci, n - 1);
    if KeepsColumn(ni, ci, values, n - 1) && header[n - 1] == k {
      assert LastKept(header, values, ni, ci, n, k, n - 1);
    } else {
      OtherFieldsLastWins(header, values, ni, ci, n - 1, k);
      var idx :| LastKept(header, values, ni, ci, n - 1, k, idx) && m[k] == values[idx];
      assert LastKept(header, values, ni, ci, n, k, idx);
    }
  }

  /** The row built from the cells of one kept data line. */
  function MakeRow(header: seq<string>, values: seq<string>): (row: ImportedRow)
    requires |values| >= 1
    ensures row.customerId == None
    ensures NameColumn(header) == -1 ==> row.name == Some(values[0])
    ensures NameColumn(header) >= 0 ==> row.name == At(values, NameColumn(header))
    ensures row.customerNo.Some? <==> CustomerNoColumn(header) >= 0 && Truthy(At(values, CustomerNoColumn(header)))
    ensures row.customerNo.Some? ==> row.customerNo == At(values, CustomerNoColumn(header))
    ensures row.otherFields == OtherFields(header, values, NameColumn(header), CustomerNoColumn(header), |header|)
  {
    var ni := NameColumn(header);
    var ci := CustomerNoColumn(header);
    ImportedRow(
      if ni >= 0 then At(values, ni) else Some(values[0]),
      if ci >= 0 && Truthy(At(values, ci)) then At(values, ci) else None,
      None,
      OtherFields(header, values, ni, ci, |header|))
  }

  /** A data line is kept when its first cell is non-empty. */
  predicate KeepsLine(line: string) {
    Cells(line)[0] != ""
  }

  /** `parseCSV`: the first non-blank line is the header; every later
      non-blank line whose first cell is non-empty yields one row, in order. */
  function ParseCsv(text: string): (rows: seq<ImportedRow>)
    ensures |Lines(text)| == 0 ==> rows == []
    ensures |Lines(text)| > 0 ==> |rows| == |Filter(Lines(text)[1..], KeepsLine)| <= |Lines(text)| - 1
  {
    var lines := Lines(text);
    if |lines| == 0 then []
    else
      var header := HeaderCells(lines[0]);
      var kept := Filter(lines[1..], KeepsLine);
      seq(|kept|, i requires 0 <= i < |kept| => MakeRow(header, Cells(kept[i])))
  }

  /** The rows `ParseCsv` builds, one per kept line, from the header line. */
  lemma ParseCsvRows(text: string, i: nat)
    requires |Lines(text)| > 0
    requires i < |ParseCsv(text)|
    ensures var kept := Filter(Lines(text)[1..], KeepsLine);
      i < |kept| && ParseCsv(text)[i] == MakeRow(HeaderCells(Lines(text)[0]), Cells(kept[i]))
  {
  }

  /** Facts every parsed row satisfies: the customer id is never set, a
      customer number is never empty, and without a name header the name is
      the (non-empty) first cell. */
  lemma ParsedRowFacts(text: string, i: nat)
    requires i < |ParseCsv(text)|
    ensures ParseCsv(text)[i].customerId == None
    ensures Truthy(ParseCsv(text)[i].customerNo) || ParseCsv(text)[i].customerNo == None
    ensures NameColumn(HeaderCells(Lines(text)[0])) == -1 ==> Truthy(ParseCsv(text)[i].name)
  {
    var kept := Filter(Lines(text)[1..], KeepsLine);
    assert KeepsLine(kept[i]);
  }

  /** With a header such as "customer name", one column plays both roles:
      the customer number, when present, is the name itself. */
  lemma SharedColumn(header: seq<string>, values: seq<string>)
    requires |values| >= 1
    requires NameColumn(header) >= 0 && NameColumn(header) == CustomerNoColumn(header)
    ensures MakeRow(header, values).customerNo.Some? ==> MakeRow(header, values).customerNo == MakeRow(header, values).name
  {
  }

  /** Without a name header, column 0 is both the name and a leftover field. */
  lemma NoNameHeader(header: seq<string>, values: seq<string>)
    requires |values| >= 1 && |header| >= 1 && values[0] != ""
    requires NameColumn(header) == -1 && CustomerNoColumn(header) != 0
    ensures MakeRow(header, values).name == Some(values[0])
    ensures header[0] in MakeRow(header, values).otherFields
  {
    assert KeepsColumn(NameColumn(header), CustomerNoColumn(header), values, 0);
  }
}

=== FILE: export.dfy ===
/** The CSV export of the customer-check page, and its round trip through the
    import dialog's parser. */
module Export {
  import opened Optional
  import opened Seqs
  import opened Text
  import opened Types
  import opened Csv
  import opened Ledger

  /** The header row the export writes. */
  const ExportHeader: seq<string> := ["TX No", "Name", "Customer No", "Source", "Transaction Type",
    "Origin Source", "List Group", "Created Date", "Created User"]

  /** The nine cells of one exported entry; an absent list group is written
      as the empty string. */
  function ExportFields(e: CheckEntry): (fields: seq<string>)
    ensures |fields| == |ExportHeader|
    ensures fields[0] == e.txNo && fields[1] == e.name && fields[2] == e.customerNo
    ensures fields[3] == SourceName(e.source) && fields[4] == TxTypeName(e.transactionType)
    ensures fields[5] == e.originSource && fields[6] == e.listGroup.GetOr("")
    ensures fields[7] == e.createdDate && fields[8] == e.createdUser
  {
    [e.txNo, e.name, e.customerNo, SourceName(e.source), TxTypeName(e.transactionType),
     e.originSource, e.listGroup.GetOr(""), e.createdDate, e.createdUser]
  }

  /** One exported line: the cells joined by commas, without quoting. */
  function ExportLine(e: CheckEntry): string {
    Join(ExportFields(e), ',')
  }

  function ExportLines(es: seq<CheckEntry>): (lines: seq<string>)
    ensures |lines| == |es|
    ensures forall i :: 0 <= i < |es| ==> lines[i] == ExportLine(es[i])
  {
    seq(|es|, i requires 0 <= i < |es| => ExportLine(es[i]))
  }

  /** No cell of the entry holds a newline. */
  predicate NoNewline(e: CheckEntry) {
    forall i :: 0 <= i < |ExportFields(e)| ==> '\n' !in ExportFields(e)[i]
  }

  /** An exported line of newline-free cells is one line, and it is never
      blank: it holds the comma after the first cell. */
  lemma LineShape(e: CheckEntry)
    requires NoNewline(e)
    ensures '\n' !in ExportLine(e)
    ensures Trim(ExportLine(e)) != ""
  {
    var f := ExportFields(e);
    var line := ExportLine(e);
    assert line == f[0] + [','] + Join(f[1..], ',');
    assert line[|f[0]|] == ',';
    TrimBlank(line);
    if '\n' in line {
      JoinChars(f, ',', '\n');
    }
  }

  /** No cell of any of the entries holds a newline. */
  predicate NoNewlines(es: seq<CheckEntry>) {
    forall i :: 0 <= i < |es| ==> NoNewline(es[i])
  }

  /** The joined export starts with the header line, which is all of it
      for no entries. */
  lemma ExportPrefix(es: seq<CheckEntry>)
    ensures StartsWith(Join([Join(ExportHeader, ',')] + ExportLines(es), '\n'), Join(ExportHeader, ','))
    ensures es == [] ==> Join([Join(ExportHeader, ',')] + ExportLines(es), '\n') == Join(ExportHeader, ',')
  {
    var header := Join(ExportHeader, ',');
    var all := [header] + ExportLines(es);
    if |es| > 0 {
      assert Join(all, '\n') == header + ['\n'] + Join(all[1..], '\n');
    }
  }

  /** Splitting the joined export at newlines gives back its lines, when no
      cell holds a newline. */
  lemma ExportSplit(es: seq<CheckEntry>)
    ensures NoNewlines(es) ==>
      Split(Join([Join(ExportHeader, ',')] + ExportLines(es), '\n'), '\n') ==
      [Join(ExportHeader, ',')] + ExportLines(es)
  {
    if NoNewlines(es) {
      var all := [Join(ExportHeader, ',')] + ExportLines(es);
      HeaderNoNewline();
      forall i | 0 <= i < |all|
        ensures '\n' !in all[i]
      {
        if i > 0 {
          LineShape(es[i - 1]);
        }
      }
      SplitJoin(all, '\n');
    }
  }

  /** The exported file: the header line, then one line per entry, joined by
      newlines. */
  function ExportCsv(es: seq<CheckEntry>): (text: string)
    ensures StartsWith(text, Join(ExportHeader, ','))
    ensures es == [] ==> text == Join(ExportHeader, ',')
    ensures NoNewlines(es) ==> Split(text, '\n') == [Join(ExportHeader, ',')] + ExportLines(es)
  {
    ExportPrefix(es);
    ExportSplit(es);
    Join([Join(ExportHeader, ',')] + ExportLines(es), '\n')
  }

  /** `handleExportSelected`: nothing to export when no row is chosen;
      otherwise the chosen rows (selected visible rows, or every visible row
      without a selection) as CSV text. */
  function ExportSelected(p: Page): (r: Option<string>)
    ensures r.None? <==> Chosen(p) == []
    ensures r.Some? ==> r.value == ExportCsv(Chosen(p))
  {
    var rows := Chosen(p);
    if |rows| == 0 then None else Some(ExportCsv(rows))
  }

  /** No white space and no double quote at either end. */
  predicate Bare(s: string) {
    |s| > 0 ==> !IsSpace(s[0]) && !IsSpace(s[|s| - 1]) && s[0] != '"' && s[|s| - 1] != '"'
  }

  /** What an entry needs for its name and customer number to survive the
      export and a re-import: no newline in any cell; no comma, edge white
      space or edge quote in the first three cells; and a non-empty
      transaction number and customer number. */
  predicate ExportSafe(e: CheckEntry) {
    && NoNewline(e)
    && ',' !in e.txNo && ',' !in e.name && ',' !in e.customerNo
    && Bare(e.txNo) && Bare(e.name) && Bare(e.customerNo)
    && e.txNo != "" && e.customerNo != ""
  }

  /** A character of a joined string is the separator or comes from a part. */
  lemma {:induction false} JoinChars(parts: seq<string>, d: char, c: char)
    requires c != d && c in Join(parts, d)
    ensures exists i :: 0 <= i < |parts| && c in parts[i]
  {
    if |parts| > 1 {
      var rest := Join(parts[1..], d);
      assert Join(parts, d) == parts[0] + [d] + rest;
      if c !in parts[0] {
        assert c in rest;
        JoinChars(parts[1..], d, c);
        var i :| 0 <= i < |parts[1..]| && c in parts[1..][i];
        assert c in parts[i + 1];
      }
    }
  }

  /** The first three cells of an exported line, as the parser splits it. */
  lemma LineSplit(e: CheckEntry)
    requires ',' !in e.txNo && ',' !in e.name && ',' !in e.customerNo
    ensures var parts := Split(ExportLine(e), ',');
      |parts| >= 3 && parts[0] == e.txNo && parts[1] == e.name && parts[2] == e.customerNo
  {
    var f := ExportFields(e);
    assert Join(f, ',') == f[0] + [','] + Join(f[1..], ',');
    assert Join(f[1..], ',') == f[1] + [','] + Join(f[2..], ',');
    assert Join(f[2..], ',') == f[2] + [','] + Join(f[3..], ',');
    SplitCons(f[2], Join(f[3..], ','), ',');
    SplitCons(f[1], Join(f[2..], ','), ',');
    SplitCons(f[0], Join(f[1..], ','), ',');
  }

  /** A bare cell passes the parser's trim and quote strip unchanged. */
  lemma BareCell(s: string)
    requires Bare(s)
    ensures StripQuotes(Trim(s)) == s
  {
    TrimOfTrimmed(s);
    if |s| == 0 {
      assert StripQuotes("") == "";
    }
  }

  /** The parser reads back the transaction number, name and customer number
      of an exported line, and keeps the line. */
  lemma LineCells(e: CheckEntry)
    requires ExportSafe(e)
    ensures var values := Cells(ExportLine(e));
      |values| >= 3 && values[0] == e.txNo && values[1] == e.name && values[2] == e.customerNo
    ensures KeepsLine(ExportLine(e))
    ensures Trim(ExportLine(e)) != ""
    ensures '\n' !in ExportLine(e)
  {
    LineSplit(e);
    BareCell(e.txNo);
    BareCell(e.name);
    BareCell(e.customerNo);
    var line := ExportLine(e);
    assert line[0] == e.txNo[0] by {
      assert line == e.txNo + [','] + Join(ExportFields(e)[1..], ',');
    }
    LineShape(e);
  }

  lemma HeaderParts()
    ensures forall i :: 0 <= i < |ExportHeader| ==> ',' !in ExportHeader[i] && '\n' !in ExportHeader[i]
  {
    forall i | 0 <= i < |ExportHeader|
      ensures ',' !in ExportHeader[i] && '\n' !in ExportHeader[i]
    {
    }
  }

  lemma HeaderSplit()
    ensures Split(Join(ExportHeader, ','), ',') == ExportHeader
  {
    HeaderParts();
    SplitJoin(ExportHeader, ',');
  }

  lemma HeaderNoNewline()
    ensures '\n' !in Join(ExportHeader, ',')
    ensures Trim(Join(ExportHeader, ',')) != ""
  {
    var h := Join(ExportHeader, ',');
    HeaderParts();
    if '\n' in h {
      JoinChars(ExportHeader, ',', '\n');
    }
    assert h == "TX No" + [','] + Join(ExportHeader[1..], ',');
    assert h[0] == 'T';
    TrimBlank(h);
  }

  /** The parser's view of the exported header: "tx no", "name" and
      "customer no" come first. */
  lemma HeaderCellsOfExport()
    ensures var h := HeaderCells(Join(ExportHeader, ','));
      |h| == 9 && h[0] == "tx no" && h[1] == "name" && h[2] == "customer no"
  {
    HeaderCellAt(0);
    HeaderCellAt(1);
    HeaderCellAt(2);
    LowerTrimmed("TX No", "tx no");
    LowerTrimmed("Name", "name");
    LowerTrimmed("Customer No", "customer no");
  }

  lemma HeaderCellAt(i: nat)
    requires i < |ExportHeader|
    ensures |HeaderCells(Join(ExportHeader, ','))| == |ExportHeader|
    ensures HeaderCells(Join(ExportHeader, ','))[i] == Lower(Trim(ExportHeader[i]))
  {
    HeaderSplit();
  }

  lemma LowerTrimmed(s: string, lower: string)
    requires || (s == "TX No" && lower == "tx no")
             || (s == "Name" && lower == "name")
             || (s == "Customer No" && lower == "customer no")
    ensures Lower(Trim(s)) == lower
  {
    TrimOfTrimmed(s);
    if s == "TX No" {
      assert Lower("TX No") == "tx no";
    } else if s == "Name" {
      assert Lower("Name") == "name";
    } else {
      assert Lower("Customer No") == "customer no";
    }
  }

  /** In the exported header the name is column 1 and the customer number
      column 2. */
  lemma ExportColumns()
    ensures NameColumn(HeaderCells(Join(ExportHeader, ','))) == 1
    ensures CustomerNoColumn(HeaderCells(Join(ExportHeader, ','))) == 2
  {
    HeaderCellsOfExport();
    NameColumnOfExport(HeaderCells(Join(ExportHeader, ',')));
    CustomerNoColumnOfExport(HeaderCells(Join(ExportHeader, ',')));
  }

  lemma NameColumnOfExport(h: seq<string>)
    requires |h| >= 3 && h[0] == "tx no" && h[1] == "name"
    ensures NameColumn(h) == 1
  {
    NotNameHeader(h[0]);
    assert IsNameHeader(h[1]) by {
      assert StartsWith("name", "name");
    }
    ColumnAt(h, IsNameHeader, 1);
  }

  lemma CustomerNoColumnOfExport(h: seq<string>)
    requires |h| >= 3 && h[0] == "tx no" && h[1] == "name" && h[2] == "customer no"
    ensures CustomerNoColumn(h) == 2
  {
    forall j | 0 <= j < 2
      ensures !IsCustomerNoHeader(h[j])
    {
      NotCustomerNoHeader(h[j]);
    }
    assert IsCustomerNoHeader(h[2]) by {
      assert StartsWith("customer no", "customer");
    }
    ColumnAt(h, IsCustomerNoHeader, 2);
  }

  lemma NotNameHeader(h: string)
    requires h == "tx no"
    ensures !IsNameHeader(h)
  {
    if Contains(h, "name") {
      ContainsChars(h, "name", 1);
    }
    if Contains(h, "имя") {
      ContainsChars(h, "имя", 0);
    }
  }

  lemma NotCustomerNoHeader(h: string)
    requires h == "tx no" || h == "name"
    ensures !IsCustomerNoHeader(h)
  {
    if Contains(h, "customer") {
      ContainsChars(h, "customer", 1);
    }
    if Contains(h, "number") {
      ContainsChars(h, "number", 1);
    }
    if Contains(h, "id") {
      ContainsChars(h, "id", 0);
    }
    if Contains(h, "клиент") {
      ContainsChars(h, "клиент", 0);
    }
    if Contains(h, "номер") {
      ContainsChars(h, "номер", 0);
    }
  }

  /** The lines the parser sees in an export: the header, then one line per
      entry. */
  lemma ExportedLines(es: seq<CheckEntry>)
    requires NoNewlines(es)
    ensures Lines(ExportCsv(es)) == [Join(ExportHeader, ',')] + ExportLines(es)
  {
    var all := [Join(ExportHeader, ',')] + ExportLines(es);
    HeaderNoNewline();
    forall i | 0 <= i < |all|
      ensures Trim(all[i]) != ""
    {
      if i > 0 {
        LineShape(es[i - 1]);
      }
    }
    FilterAll(all, NonBlank());
  }

  /** Round trip: re-importing an export yields one row per entry, in order,
      with the entry's name and customer number. */
  lemma {:induction false} ExportRoundTrip(es: seq<CheckEntry>)
    requires forall i :: 0 <= i < |es| ==> ExportSafe(es[i])
    ensures |ParseCsv(ExportCsv(es))| == |es|
    ensures forall i :: 0 <= i < |es| ==>
      && ParseCsv(ExportCsv(es))[i].name == Some(es[i].name)
      && ParseCsv(ExportCsv(es))[i].customerNo == Some(es[i].customerNo)
  {
    var text := ExportCsv(es);
    var lines := ExportLines(es);
    ExportedLines(es);
    assert Lines(text)[1..] == lines;
    forall i | 0 <= i < |lines|
      ensures KeepsLine(lines[i])
    {
      LineCells(es[i]);
    }
    FilterAll(lines, KeepsLine);
    ExportColumns();
    forall i | 0 <= i < |es|
      ensures ParseCsv(text)[i].name == Some(es[i].name)
      ensures ParseCsv(text)[i].customerNo == Some(es[i].customerNo)
    {
      ParseCsvRows(text, i);
      LineCells(es[i]);
    }
  }
}

=== FILE: general_list.dfy ===
/** The general list page: the filter over the reference population and the
    detail modal's edit and delete. */
module GeneralList {
  import opened Seqs
  import opened Text
  import opened Types

  /** A drop-down choice: every value, or exactly one. */
  datatype Choice<T> = All | Only(value: T)

  /** The filter form; empty text means "no bound". */
  datatype ListFilter = ListFilter(
    searchName: string,
    source: Choice<Source>,
    status: Choice<Status>,
    originSource: string,
    dateFrom: string,
    dateTo: string)

  const Unfiltered := ListFilter("", All, All, "", "", "")

  /** `a <= b` on JavaScript strings. */
  predicate LexLessEq(a: string, b: string) {
    a == b || LexLess(a, b)
  }

  /** The predicate of `filteredCustomers`: each active filter rejects on
      mismatch; dates are compared as strings. */
  predicate Listed(c: Customer, f: ListFilter) {
    && (f.searchName == "" || Contains(c.searchName, Upper(f.searchName)))
    && (f.source == All || c.source == f.source.value)
    && (f.status == All || c.status == f.status.value)
    && (f.originSource == "" || c.originSource == f.originSource)
    && (f.dateFrom == "" || !LexLess(c.createdDate, f.dateFrom))
    && (f.dateTo == "" || !LexLess(f.dateTo, c.createdDate))
  }

  function ListedBy(f: ListFilter): Customer -> bool {
    (c: Customer) => Listed(c, f)
  }

  function Unlisted(f: ListFilter): Customer -> bool {
    (c: Customer) => !Listed(c, f)
  }

  /** `filteredCustomers`: the listed customers, in list order. */
  function FilterCustomers(cs: seq<Customer>, f: ListFilter): (r: seq<Customer>)
    ensures IsSubsequence(r, cs)
    ensures forall c :: c in cs && Listed(c, f) ==> c in r
    ensures forall i :: 0 <= i < |r| ==>
      && (f.searchName != "" ==> Contains(r[i].searchName, Upper(f.searchName)))
      && (f.source.Only? ==> r[i].source == f.source.value)
      && (f.status.Only? ==> r[i].status == f.status.value)
      && (f.originSource != "" ==> r[i].originSource == f.originSource)
    ensures forall i :: 0 <= i < |r| ==> Listed(r[i], f)
    ensures |r| == |cs| - |Filter(cs, Unlisted(f))|
  {
    FilterIsSubsequence(cs, ListedBy(f));
    FilterPartition(cs, ListedBy(f), Unlisted(f));
    Filter(cs, ListedBy(f))
  }

  /** The date bounds are inclusive: with only the dates set, a customer is
      listed exactly when `dateFrom <= createdDate <= dateTo`. */
  lemma DateBounds(c: Customer, dateFrom: string, dateTo: string)
    ensures Listed(c, Unfiltered.(dateFrom := dateFrom, dateTo := dateTo)) <==>
      && (dateFrom == "" || LexLessEq(dateFrom, c.createdDate))
      && (dateTo == "" || LexLessEq(c.createdDate, dateTo))
  {
    LexLessTotal(dateFrom, c.createdDate);
    LexLessTotal(c.createdDate, dateTo);
    LexLessAsymmetric(dateFrom, c.createdDate);
    LexLessAsymmetric(c.createdDate, dateTo);
    LexLessIrreflexive(c.createdDate);
  }

  /** With every filter empty the list is shown unchanged. */
  lemma UnfilteredList(cs: seq<Customer>)
    ensures FilterCustomers(cs, Unfiltered) == cs
  {
    FilterAll(cs, ListedBy(Unfiltered));
  }

  /** Filtering what is already filtered changes nothing. */
  lemma FilterCustomersIdempotent(cs: seq<Customer>, f: ListFilter)
    ensures FilterCustomers(FilterCustomers(cs, f), f) == FilterCustomers(cs, f)
  {
    FilterIdempotent(cs, ListedBy(f));
  }

  /** The detail modal's edit: every customer with the edited record's
      `uqId` is replaced by it. */
  function EditCustomer(cs: seq<Customer>, updated: Customer): (r: seq<Customer>)
    ensures |r| == |cs|
    ensures forall i :: 0 <= i < |cs| ==> r[i] == (if cs[i].uqId == updated.uqId then updated else cs[i])
  {
    seq(|cs|, i requires 0 <= i < |cs| => if cs[i].uqId == updated.uqId then updated else cs[i])
  }

  function KeepsOther(uqId: string): Customer -> bool {
    (c: Customer) => c.uqId != uqId
  }

  function IsRecord(uqId: string): Customer -> bool {
    (c: Customer) => c.uqId == uqId
  }

  /** The detail modal's delete: drops every customer with that `uqId`. */
  function DeleteCustomer(cs: seq<Customer>, uqId: string): (r: seq<Customer>)
    ensures IsSubsequence(r, cs)
    ensures forall c :: c in r ==> c in cs && c.uqId != uqId
    ensures forall c :: c in cs && c.uqId != uqId ==> c in r
    ensures |r| == |cs| - |Filter(cs, IsRecord(uqId))|
  {
    FilterIsSubsequence(cs, KeepsOther(uqId));
    FilterPartition(cs, KeepsOther(uqId), IsRecord(uqId));
    Filter(cs, KeepsOther(uqId))
  }

  /** Deleting a record makes an earlier edit of it irrelevant. */
  lemma {:induction false} DeleteAfterEdit(cs: seq<Customer>, updated: Customer)
    ensures DeleteCustomer(EditCustomer(cs, updated), updated.uqId) == DeleteCustomer(cs, updated.uqId)
  {
    if |cs| > 0 {
      DeleteAfterEdit(cs[1..], updated);
      assert EditCustomer(cs, updated)[1..] == EditCustomer(cs[1..], updated);
    }
  }

  /** Editing twice with the same record is editing once. */
  lemma EditTwice(cs: seq<Customer>, updated: Customer)
    ensures EditCustomer(EditCustomer(cs, updated), updated) == EditCustomer(cs, updated)
  {
  }

  /** Deleting an absent `uqId` leaves the list unchanged. */
  lemma DeleteAbsent(cs: seq<Customer>, uqId: string)
    requires forall i :: 0 <= i < |cs| ==> cs[i].uqId != uqId
    ensures DeleteCustomer(cs, uqId) == cs
  {
    FilterAll(cs, KeepsOther(uqId));
  }
}

=== FILE: ledger.dfy ===
/** The customer-check page: the ledger of entries being prepared as one
    transaction, the set of selected entry keys, and the handlers that change
    them. Each handler is one atomic state transition. */
module Ledger {
  import opened Optional
  import opened Seqs
  import opened Types
  import opened View

  /** The page state. `selected` holds entry keys (a JavaScript `Set` of
      strings, so only membership and size matter). */
  datatype Page = Page(
    entries: seq<CheckEntry>,
    selected: set<string>,
    txNo: string,
    filter: ViewFilter,
    sort: SortSpec)

  /** `getEntryKey`: transaction number, customer number and created date,
      joined by dashes. Two entries can share a key. */
  function EntryKey(e: CheckEntry): (k: string)
    ensures |k| == |e.txNo| + |e.customerNo| + |e.createdDate| + 2
    ensures k[..|e.txNo|] == e.txNo && k[|e.txNo|] == '-'
    ensures k[|e.txNo| + 1..|e.txNo| + 1 + |e.customerNo|] == e.customerNo
    ensures k[|k| - |e.createdDate| - 1] == '-' && k[|k| - |e.createdDate|..] == e.createdDate
  {
    e.txNo + "-" + e.customerNo + "-" + e.createdDate
  }

  /** Entries that agree on transaction number, customer number and date
      share a key, whatever their other fields. */
  lemma SameKey(a: CheckEntry, b: CheckEntry)
    requires a.txNo == b.txNo && a.customerNo == b.customerNo && a.createdDate == b.createdDate
    ensures EntryKey(a) == EntryKey(b)
  {
  }

  function KeyList(s: seq<CheckEntry>): (r: seq<string>)
    ensures |r| == |s|
    ensures forall i :: 0 <= i < |s| ==> r[i] == EntryKey(s[i])
  {
    seq(|s|, i requires 0 <= i < |s| => EntryKey(s[i]))
  }

  /** The keys of the entries of `s`. */
  function Keys(s: seq<CheckEntry>): set<string> {
    Elements(KeyList(s))
  }

  lemma KeyOf(s: seq<CheckEntry>, i: nat)
    requires i < |s|
    ensures EntryKey(s[i]) in Keys(s)
  {
    assert KeyList(s)[i] == EntryKey(s[i]);
  }

  lemma KeyWitness(s: seq<CheckEntry>, k: string)
    requires k in Keys(s)
    ensures exists i :: 0 <= i < |s| && EntryKey(s[i]) == k
  {
    assert k in KeyList(s);
  }

  /** Every selected key belongs to some entry of the ledger. */
  predicate SelectionValid(p: Page) {
    p.selected <= Keys(p.entries)
  }

  /** The rows the table shows. */
  function Visible(p: Page): seq<CheckEntry> {
    ViewOf(p.entries, p.filter, p.sort)
  }

  predicate IsSelected(p: Page, e: CheckEntry) {
    EntryKey(e) in p.selected
  }

  // ---------------------------------------------------------------------
  // Merge

  /** The customer numbers already in the ledger. */
  function CustomerNos(s: seq<CheckEntry>): set<string> {
    set e | e in s :: e.customerNo
  }

  /** The filter predicates the handlers pass to `Array.prototype.filter`. */
  function Unknown(known: set<string>): CheckEntry -> bool {
    (e: CheckEntry) => e.customerNo !in known
  }

  function Known(known: set<string>): CheckEntry -> bool {
    (e: CheckEntry) => e.customerNo in known
  }

  function Unselected(selected: set<string>): CheckEntry -> bool {
    (e: CheckEntry) => EntryKey(e) !in selected
  }

  function InSelection(selected: set<string>): CheckEntry -> bool {
    (e: CheckEntry) => EntryKey(e) in selected
  }

  /** The page after an import, and the number of incoming entries skipped
      as duplicates (the count the alert reports). */
  datatype MergeOutcome = MergeOutcome(page: Page, duplicates: nat)

  /** `handleImportFromModal`: appends, in order, the incoming entries whose
      customer number is not already in the ledger. Incoming entries are not
      checked against each other. */
  function Merge(p: Page, incoming: seq<CheckEntry>): (r: MergeOutcome)
    ensures r.duplicates == |Filter(incoming, Known(CustomerNos(p.entries)))| <= |incoming|
    ensures |r.page.entries| == |p.entries| + |incoming| - r.duplicates
    ensures r.page.entries[..|p.entries|] == p.entries
    ensures forall e :: e in r.page.entries[|p.entries|..] ==>
      e in incoming && e.customerNo !in CustomerNos(p.entries)
    ensures forall e :: e in incoming && e.customerNo !in CustomerNos(p.entries) ==>
      e in r.page.entries[|p.entries|..]
    ensures IsSubsequence(r.page.entries[|p.entries|..], incoming)
    ensures r.page.selected == p.selected && r.page.txNo == p.txNo
    ensures r.page.filter == p.filter && r.page.sort == p.sort
    ensures r.duplicates == 0 ==> r.page.entries == p.entries + incoming
  {
    var known := CustomerNos(p.entries);
    var added := Filter(incoming, Unknown(known));
    FilterIsSubsequence(incoming, Unknown(known));
    FilterSameLength(incoming, Unknown(known));
    FilterPartition(incoming, Unknown(known), Known(known));
    var entries := if |added| > 0 then p.entries + added else p.entries;
    assert entries[..|p.entries|] == p.entries;
    assert entries[|p.entries|..] == added;
    MergeOutcome(p.(entries := entries), |incoming| - |added|)
  }

  /** Importing the same batch a second time appends nothing and reports
      every entry as a duplicate. */
  lemma MergeTwice(p: Page, incoming: seq<CheckEntry>)
    ensures var once := Merge(p, incoming).page;
      Merge(once, incoming) == MergeOutcome(once, |incoming|)
  {
    var once := Merge(p, incoming).page;
    var known := CustomerNos(once.entries);
    forall i | 0 <= i < |incoming|
      ensures incoming[i].customerNo in known
    {
      var e := incoming[i];
      if e.customerNo in CustomerNos(p.entries) {
        var w :| w in p.entries && w.customerNo == e.customerNo;
        assert w == once.entries[..|p.entries|][IndexOf(p.entries, w)];
      } else {
        assert e in once.entries[|p.entries|..];
        assert e in once.entries;
      }
    }
    FilterNone(incoming, Unknown(known));
  }

  function IndexOf<T(==)>(s: seq<T>, x: T): (i: nat)
    requires x in s
    ensures i < |s| && s[i] == x
  {
    if s[0] == x then 0 else 1 + IndexOf(s[1..], x)
  }

  /** A merge never shrinks the set of keys, so it keeps a valid selection
      valid. */
  lemma MergeKeepsSelection(p: Page, incoming: seq<CheckEntry>)
    requires SelectionValid(p)
    ensures SelectionValid(Merge(p, incoming).page)
  {
    var q := Merge(p, incoming).page;
    forall k | k in p.selected
      ensures k in Keys(q.entries)
    {
      KeyWitness(p.entries, k);
      var i :| 0 <= i < |p.entries| && EntryKey(p.entries[i]) == k;
      assert q.entries[..|p.entries|][i] == p.entries[i];
      KeyOf(q.entries, i);
    }
  }

  // ---------------------------------------------------------------------
  // Remove one row

  /** `handleRemoveEntry`: drops the entry at `index` and its key from the
      selection; an index outside the ledger changes nothing. */
  function RemoveAt(p: Page, index: int): (r: Page)
    ensures !(0 <= index < |p.entries|) ==> r == p
    ensures 0 <= index < |p.entries| ==>
      && |r.entries| == |p.entries| - 1
      && (forall i :: 0 <= i < index ==> r.entries[i] == p.entries[i])
      && (forall i :: index <= i < |r.entries| ==> r.entries[i] == p.entries[i + 1])
      && EntryKey(p.entries[index]) !in r.selected
      && (forall k :: k != EntryKey(p.entries[index]) ==> (k in r.selected <==> k in p.selected))
    ensures r.txNo == p.txNo && r.filter == p.filter && r.sort == p.sort
  {
    if 0 <= index < |p.entries| then
      p.(entries := p.entries[..index] + p.entries[index + 1..],
         selected := p.selected - {EntryKey(p.entries[index])})
    else p
  }

  lemma RemoveKeepsSelection(p: Page, index: int)
    requires SelectionValid(p)
    ensures SelectionValid(RemoveAt(p, index))
  {
    if 0 <= index < |p.entries| {
      var q := RemoveAt(p, index);
      forall k | k in q.selected
        ensures k in Keys(q.entries)
      {
        assert k in p.selected && k != EntryKey(p.entries[index]);
        KeyWitness(p.entries, k);
        var i :| 0 <= i < |p.entries| && EntryKey(p.entries[i]) == k;
        if i < index {
          assert q.entries[i] == p.entries[i];
          KeyOf(q.entries, i);
        } else {
          assert q.entries[i - 1] == p.entries[i];
          KeyOf(q.entries, i - 1);
        }
      }
    }
  }

  // ---------------------------------------------------------------------
  // Selection

  /** `handleToggleSelect` of the table. */
  function ToggleSelect(p: Page, e: CheckEntry): (r: Page)
    ensures IsSelected(r, e) <==> !IsSelected(p, e)
    ensures forall k :: k != EntryKey(e) ==> (k in r.selected <==> k in p.selected)
    ensures r.entries == p.entries
    ensures r.txNo == p.txNo && r.filter == p.filter && r.sort == p.sort
  {
    var k := EntryKey(e);
    if k in p.selected then p.(selected := p.selected - {k}) else p.(selected := p.selected + {k})
  }

  /** Toggling the same row twice restores the selection. */
  lemma ToggleSelectTwice(p: Page, e: CheckEntry)
    ensures ToggleSelect(ToggleSelect(p, e), e) == p
  {
  }

  /** Toggling a row of the ledger keeps the selection valid. */
  lemma ToggleKeepsSelection(p: Page, i: nat)
    requires SelectionValid(p) && i < |p.entries|
    ensures SelectionValid(ToggleSelect(p, p.entries[i]))
  {
    KeyOf(p.entries, i);
  }

  /** Every visible row is selected and the selection has as many keys as
      there are visible rows. */
  predicate AllVisibleSelected(p: Page) {
    var view := Visible(p);
    |p.selected| == |view| && forall i :: 0 <= i < |view| ==> EntryKey(view[i]) in p.selected
  }

  /** `handleSelectAll`: clears the selection when every visible row is
      selected and the sizes agree, otherwise selects exactly the visible
      rows (hidden selected rows are dropped from the selection). */
  function SelectAll(p: Page): (r: Page)
    ensures AllVisibleSelected(p) ==> r.selected == {}
    ensures !AllVisibleSelected(p) ==>
      && (forall i :: 0 <= i < |Visible(p)| ==> IsSelected(r, Visible(p)[i]))
      && (forall k :: k in r.selected ==> exists e :: e in Visible(p) && EntryKey(e) == k)
    ensures r.entries == p.entries && r.txNo == p.txNo && r.filter == p.filter && r.sort == p.sort
  {
    var view := Visible(p);
    if AllVisibleSelected(p) then p.(selected := {})
    else
      forall i | 0 <= i < |view|
        ensures EntryKey(view[i]) in Keys(view)
      {
        KeyOf(view, i);
      }
      forall k | k in Keys(view)
        ensures exists e :: e in view && EntryKey(e) == k
      {
        KeyWitness(view, k);
      }
      p.(selected := Keys(view))
  }

  /** Selecting all keeps the selection valid: visible rows are ledger rows. */
  lemma SelectAllKeepsSelection(p: Page)
    ensures SelectionValid(SelectAll(p))
  {
    var q := SelectAll(p);
    forall k | k in q.selected
      ensures k in Keys(p.entries)
    {
      var e :| e in Visible(p) && EntryKey(e) == k;
      var i := IndexOf(p.entries, e);
      KeyOf(p.entries, i);
    }
  }

  /** When the visible rows have distinct keys, a second click on
      "select all" clears what the first one selected. */
  lemma SelectAllTwice(p: Page)
    requires Distinct(KeyList(Visible(p)))
    requires !AllVisibleSelected(p)
    ensures SelectAll(SelectAll(p)).selected == {}
  {
    var q := SelectAll(p);
    assert Visible(q) == Visible(p);
    DistinctElements(KeyList(Visible(p)));
  }

  /** When two visible rows share a key, "select all" from a state where
      not every visible row is selected selects the visible keys, which are
      fewer than the visible rows; from then on the size test fails and
      every further click re-selects the same keys instead of clearing. */
  lemma SelectAllSharedKeyNeverClears(p: Page, i: nat, j: nat)
    requires i < j < |Visible(p)| && EntryKey(Visible(p)[i]) == EntryKey(Visible(p)[j])
    requires !AllVisibleSelected(p)
    ensures SelectAll(p).selected != {}
    ensures SelectAll(SelectAll(p)) == SelectAll(p)
  {
    var view := Visible(p);
    var q := SelectAll(p);
    assert KeyList(view)[i] == KeyList(view)[j];
    RepeatedElements(KeyList(view), i, j);
    KeyOf(view, i);
    assert Visible(q) == view;
  }

  // ---------------------------------------------------------------------
  // Delete selected

  /** `handleDeleteSelected`, with the confirmation accepted: nothing
      happens without a selection; otherwise every entry whose key is
      selected is removed, visible or not, and the selection is emptied. */
  function DeleteSelected(p: Page): (r: Page)
    ensures p.selected == {} ==> r == p
    ensures p.selected != {} ==>
      && r.selected == {}
      && (forall e :: e in r.entries ==> e in p.entries && !IsSelected(p, e))
      && (forall e :: e in p.entries && !IsSelected(p, e) ==> e in r.entries)
      && IsSubsequence(r.entries, p.entries)
      && |r.entries| == |p.entries| - |Filter(p.entries, InSelection(p.selected))|
    ensures r.txNo == p.txNo && r.filter == p.filter && r.sort == p.sort
  {
    if |p.selected| == 0 then p
    else
      FilterIsSubsequence(p.entries, Unselected(p.selected));
      FilterPartition(p.entries, Unselected(p.selected), InSelection(p.selected));
      p.(entries := Filter(p.entries, Unselected(p.selected)), selected := {})
  }

  lemma DeleteKeepsSelection(p: Page)
    requires SelectionValid(p)
    ensures SelectionValid(DeleteSelected(p))
  {
  }

  // ---------------------------------------------------------------------
  // Submit

  datatype SubmitOutcome =
    | NothingToSend
    | Sent(sent: seq<CheckEntry>, txNo: string, page: Page)

  /** What a submit or an export acts on: the selected visible rows when
      something is selected, otherwise every visible row. */
  function Chosen(p: Page): (r: seq<CheckEntry>)
    ensures forall e :: e in r ==> e in Visible(p) && (p.selected != {} ==> IsSelected(p, e))
    ensures forall e :: e in Visible(p) && (p.selected != {} ==> IsSelected(p, e)) ==> e in r
    ensures IsSubsequence(r, Visible(p))
    ensures p.selected == {} ==> r == Visible(p)
    ensures p.selected != {} ==> |r| == |Visible(p)| - |Filter(Visible(p), Unselected(p.selected))|
  {
    var view := Visible(p);
    if |p.selected| > 0 then
      FilterIsSubsequence(view, InSelection(p.selected));
      FilterPartition(view, InSelection(p.selected), Unselected(p.selected));
      Filter(view, InSelection(p.selected))
    else
      SubsequenceRefl(view);
      view
  }

  /** `handleSendTransaction`: with nothing to send the page is unchanged;
      otherwise the chosen rows are sent under the current transaction
      number, a fresh number is taken, and the ledger loses every selected
      entry (even hidden ones) or, with no selection, every entry (even
      hidden ones). */
  function Submit(p: Page, freshTxNo: string): (r: SubmitOutcome)
    ensures r.NothingToSend? <==> Chosen(p) == []
    ensures r.Sent? ==>
      && r.sent == Chosen(p) && r.txNo == p.txNo
      && r.page.txNo == freshTxNo && r.page.selected == {}
      && (p.selected == {} ==> r.page.entries == [])
      && (forall e :: e in r.page.entries ==> e in p.entries && !IsSelected(p, e))
      && (forall e :: e in p.entries && !IsSelected(p, e) && p.selected != {} ==> e in r.page.entries)
      && IsSubsequence(r.page.entries, p.entries)
      && (p.selected != {} ==> |r.page.entries| == |p.entries| - |Filter(p.entries, InSelection(p.selected))|)
      && r.page.filter == p.filter && r.page.sort == p.sort
  {
    var send := Chosen(p);
    if |send| == 0 then NothingToSend
    else
      FilterIsSubsequence(p.entries, Unselected(p.selected));
      FilterPartition(p.entries, Unselected(p.selected), InSelection(p.selected));
      var entries := if |p.selected| > 0 then Filter(p.entries, Unselected(p.selected)) else [];
      Sent(send, p.txNo, p.(entries := entries, selected := {}, txNo := freshTxNo))
  }

  /** A visible row that is selected, or any visible row when nothing is
      selected, makes the submit go through. */
  lemma SubmitSends(p: Page, freshTxNo: string, e: CheckEntry)
    requires e in p.entries && Passes(e, p.filter)
    requires p.selected != {} ==> IsSelected(p, e)
    ensures Submit(p, freshTxNo).Sent? && e in Submit(p, freshTxNo).sent
  {
    assert e in Visible(p);
    assert e in Chosen(p);
  }

  lemma SubmitKeepsSelection(p: Page, freshTxNo: string)
    ensures Submit(p, freshTxNo).Sent? ==> SelectionValid(Submit(p, freshTxNo).page)
  {
  }

  /** A selected entry hidden by the filter is removed by a submit although
      it was not sent. */
  lemma SubmitDropsHiddenSelected(p: Page, freshTxNo: string, e: CheckEntry)
    requires e in p.entries && IsSelected(p, e) && !Passes(e, p.filter)
    requires Submit(p, freshTxNo).Sent?
    ensures e !in Submit(p, freshTxNo).sent && e !in Submit(p, freshTxNo).page.entries
  {
  }

  // ---------------------------------------------------------------------
  // Detail modal

  /** The detail modal's edit: every entry whose customer number equals the
      edited record's number or id takes the record's name and search name. */
  function DetailEdit(p: Page, updated: Customer): (r: Page)
    ensures |r.entries| == |p.entries| && r.selected == p.selected
    ensures r.txNo == p.txNo && r.filter == p.filter && r.sort == p.sort
    ensures forall i :: 0 <= i < |p.entries| ==>
      var e := p.entries[i];
      if Some(e.customerNo) == updated.customerNumber || Some(e.customerNo) == updated.customerId
      then r.entries[i] == e.(name := updated.name, searchName := updated.searchName)
      else r.entries[i] == e
  {
    p.(entries := seq(|p.entries|, i requires 0 <= i < |p.entries| =>
      var e := p.entries[i];
      if Some(e.customerNo) == updated.customerNumber || Some(e.customerNo) == updated.customerId
      then e.(name := updated.name, searchName := updated.searchName)
      else e))
  }

  /** The edit changes neither transaction number, customer number nor date,
      so every key survives. */
  lemma DetailEditKeepsKeys(p: Page, updated: Customer)
    ensures Keys(DetailEdit(p, updated).entries) == Keys(p.entries)
  {
    var q := DetailEdit(p, updated);
    assert KeyList(q.entries) == KeyList(p.entries);
  }

  function HasUqId(uqId: string): Customer -> bool {
    (c: Customer) => c.uqId == uqId
  }

  /** The entry carries neither the record's customer number nor its id. */
  function NotCarrying(c: Customer): CheckEntry -> bool {
    (e: CheckEntry) => Some(e.customerNo) != c.customerNumber && Some(e.customerNo) != c.customerId
  }

  /** The entry carries the record's customer number or id. */
  function Carrying(c: Customer): CheckEntry -> bool {
    (e: CheckEntry) => Some(e.customerNo) == c.customerNumber || Some(e.customerNo) == c.customerId
  }

  /** The detail modal's delete: the record is looked up by `uqId` in the
      population; when found, every entry carrying its number or id is
      removed. The selection is left as it was. */
  function DetailDelete(p: Page, pop: seq<Customer>, uqId: string): (r: Page)
    ensures r.selected == p.selected
    ensures r.txNo == p.txNo && r.filter == p.filter && r.sort == p.sort
    ensures (forall i :: 0 <= i < |pop| ==> pop[i].uqId != uqId) ==> r == p
    ensures forall e :: e in r.entries ==> e in p.entries
  {
    match Find(pop, HasUqId(uqId))
    case None => p
    case Some(i) => p.(entries := Filter(p.entries, NotCarrying(pop[i])))
  }

  /** With `pop[i]` the first record of that `uqId`, exactly the entries
      carrying its customer number or id are removed, and the others keep
      their order. */
  lemma DetailDeleteFirst(p: Page, pop: seq<Customer>, uqId: string, i: nat)
    requires i < |pop| && pop[i].uqId == uqId
    requires forall j :: 0 <= j < i ==> pop[j].uqId != uqId
    ensures IsSubsequence(DetailDelete(p, pop, uqId).entries, p.entries)
    ensures forall e :: e in p.entries ==>
      (e in DetailDelete(p, pop, uqId).entries <==>
        Some(e.customerNo) != pop[i].customerNumber && Some(e.customerNo) != pop[i].customerId)
    ensures |DetailDelete(p, pop, uqId).entries| == |p.entries| - |Filter(p.entries, Carrying(pop[i]))|
  {
    var f := Find(pop, HasUqId(uqId));
    assert f == Some(i);
    FilterIsSubsequence(p.entries, NotCarrying(pop[i]));
    FilterPartition(p.entries, NotCarrying(pop[i]), Carrying(pop[i]));
  }
}

=== FILE: ledger_scenarios.dfy ===
/** Worked examples of the customer-check page handlers. */
module LedgerScenarios {
  import opened Optional
  import opened Seqs
  import opened Text
  import opened Types
  import opened View
  import opened Ledger
  import opened Scenarios

  /** An imported entry of transaction "T" dated "D", named after its
      customer number. */
  function Entry(customerNo: string): CheckEntry {
    CheckEntry("T", customerNo, customerNo, customerNo, "D", "u", WhiteList, Insert, "Import", None)
  }

  function PageOf(entries: seq<CheckEntry>, selected: set<string>): Page {
    Page(entries, selected, "T", NoFilter, InitialSort)
  }

  lemma EntryKeys()
    ensures EntryKey(Entry("111")) == "T-111-D"
    ensures EntryKey(Entry("222")) == "T-222-D"
    ensures EntryKey(Entry("333")) == "T-333-D"
  {
  }

  /** Two entries "111" and "222" are selected next to an unselected "333":
      submitting removes exactly the two selected ones. */
  lemma SubmitSelectedPair()
    ensures var p := PageOf([Entry("111"), Entry("222"), Entry("333")],
                            {EntryKey(Entry("111")), EntryKey(Entry("222"))});
      var r := Submit(p, "TX-2");
      r.Sent? && r.page.entries == [Entry("333")] && r.page.selected == {} && r.page.txNo == "TX-2"
  {
    var s := [Entry("111"), Entry("222"), Entry("333")];
    var sel := {EntryKey(Entry("111")), EntryKey(Entry("222"))};
    var p := PageOf(s, sel);
    SubmitSends(p, "TX-2", Entry("111"));
    KeepsUnselected();
  }

  lemma KeepsUnselected()
    ensures Filter([Entry("111"), Entry("222"), Entry("333")],
      Unselected({EntryKey(Entry("111")), EntryKey(Entry("222"))})) == [Entry("333")]
  {
    var s := [Entry("111"), Entry("222"), Entry("333")];
    var sel := {EntryKey(Entry("111")), EntryKey(Entry("222"))};
    EntryKeys();
    assert s[1..][1..] == [Entry("333")];
    assert s[1..][1..][1..] == [];
  }

  /** Submitting with nothing selected empties the ledger, even the rows a
      filter hides. */
  lemma SubmitWithoutSelectionClearsHidden()
    ensures var p := PageOf([Entry("111"), Entry("222")], {}).(filter := ViewFilter("", "", "111", None));
      var r := Submit(p, "TX-2");
      r.Sent? && r.page.entries == [] && Entry("222") !in r.sent
  {
    var p := PageOf([Entry("111"), Entry("222")], {}).(filter := ViewFilter("", "", "111", None));
    HiddenByNumber();
    SubmitSends(p, "TX-2", Entry("111"));
  }

  lemma HiddenByNumber()
    ensures Passes(Entry("111"), ViewFilter("", "", "111", None))
    ensures !Passes(Entry("222"), ViewFilter("", "", "111", None))
  {
    assert Lower("111") == "111";
    assert Lower("222") == "222";
    assert Contains("111", "111");
    assert !Contains("222", "111") by {
      if Contains("222", "111") {
        ContainsChars("222", "111", 0);
      }
    }
  }

  /** Duplicates inside one imported batch are all kept. */
  lemma MergeKeepsBatchDuplicates()
    ensures var r := Merge(PageOf([], {}), [Entry("111"), Entry("111")]);
      r.duplicates == 0 && r.page.entries == [Entry("111"), Entry("111")]
  {
  }

  /** Different entries can share a key: the dash that joins the key's parts
      may also occur inside them. */
  lemma KeyCollision()
    ensures var a := Entry("5-6");
      var b := Entry("6").(txNo := "T-5");
      a != b && EntryKey(a) == EntryKey(b)
  {
  }

  /** The detail modal's delete removes the entries of a record but keeps
      their keys selected, so the selection no longer names ledger rows. */
  lemma DetailDeleteLeavesStaleKey()
    ensures var p := PageOf([Entry("111")], {EntryKey(Entry("111"))});
      SelectionValid(p) && !SelectionValid(DetailDelete(p, [Ivanov()], "WL-100"))
  {
    var p := PageOf([Entry("111")], {EntryKey(Entry("111"))});
    KeyOf(p.entries, 0);
    assert DetailDelete(p, [Ivanov()], "WL-100").entries == [];
  }
}

=== FILE: matcher.dfy ===
/** The matcher of the customer import dialog: each imported row is matched
    against the reference population by identifier, then by exact name, then
    by the best containment ratio of the upper-cased names. */
module Matcher {
  import opened Optional
  import opened Seqs
  import opened Text
  import opened Types
  import opened Csv

  datatype MatchKind = Exact | Partial | NoMatch

  /** An imported row with the record chosen for it, if any. */
  datatype MatchResult = MatchResult(
    row: ImportedRow,
    matched: Option<Customer>,
    kind: MatchKind,
    score: Option<int>)

  /** The whole batch fails when a row has no name: upper-casing an
      undefined name throws, and the upload handler reports the error. */
  datatype MatchError = MissingName(rowIndex: nat)

  /** The containment score `num / den` before scaling by 100: the shorter
      length over the longer one. A zero denominator is JavaScript's NaN. */
  datatype Ratio = Ratio(num: nat, den: nat)

  /** A row takes part in identifier matching when it carries a non-empty
      customer number or customer id. */
  predicate HasKey(row: ImportedRow) {
    Truthy(row.customerNo) || Truthy(row.customerId)
  }

  /** The four-way identifier test, with `===` on possibly undefined values:
      two absent identifiers are equal. */
  predicate KeyMatches(c: Customer, row: ImportedRow) {
    || c.customerNumber == row.customerNo
    || c.customerId == row.customerNo
    || c.customerNumber == row.customerId
    || c.customerId == row.customerId
  }

  /** The exact-name test: the record's name upper-cased, or its stored
      search name as is, equals the upper-cased row name. */
  predicate NameMatches(c: Customer, nameUpper: string) {
    Upper(c.name) == nameUpper || c.searchName == nameUpper
  }

  function LengthRatio(a: string, b: string): (r: Ratio)
    ensures r.num <= r.den
    ensures multiset{r.num, r.den} == multiset{|a|, |b|}
    ensures r.den == 0 ==> a == "" && b == ""
  {
    if |a| <= |b| then Ratio(|a|, |b|) else Ratio(|b|, |a|)
  }

  /** One name contains the other (`includes` in either direction). */
  predicate Overlap(a: string, b: string) {
    Contains(a, b) || Contains(b, a)
  }

  /** The containment score of one record: by its upper-cased name when the
      names contain one another, else by its upper-cased search name, else 0. */
  function PartialRatio(c: Customer, nameUpper: string): (r: Ratio)
    ensures r.num <= r.den
    ensures r.num > 0 ==> Overlap(Upper(c.name), nameUpper) || Overlap(Upper(c.searchName), nameUpper)
    ensures Overlap(Upper(c.name), nameUpper) ==> r == LengthRatio(nameUpper, Upper(c.name))
    ensures !Overlap(Upper(c.name), nameUpper) && Overlap(Upper(c.searchName), nameUpper) ==>
      r == LengthRatio(nameUpper, Upper(c.searchName))
    ensures !Overlap(Upper(c.name), nameUpper) && !Overlap(Upper(c.searchName), nameUpper) ==>
      r.num == 0 && !Qualifies(r)
  {
    var customerUpper := Upper(c.name);
    var searchUpper := Upper(c.searchName);
    if Overlap(customerUpper, nameUpper) then
      LengthRatio(nameUpper, customerUpper)
    else if Overlap(searchUpper, nameUpper) then
      LengthRatio(nameUpper, searchUpper)
    else Ratio(0, 1)
  }

  /** `score >= 50` (NaN never qualifies). */
  predicate Qualifies(r: Ratio) {
    r.den > 0 && 2 * r.num >= r.den
  }

  /** `a > b` on the scores, cross-multiplied. */
  predicate Exceeds(a: Ratio, b: Ratio) {
    a.num * b.den > b.num * a.den
  }

  /** `Math.round(num / den * 100)`, halves rounded up. */
  function Percent(r: Ratio): (p: int)
    requires r.den > 0
    ensures 2 * r.den * p <= 200 * r.num + r.den < 2 * r.den * (p + 1)
  {
    var q := 2 * r.den;
    var x := 200 * r.num + r.den;
    assert x == q * (x / q) + x % q;
    (200 * r.num + r.den) / (2 * r.den)
  }

  /** A qualifying score rounds into [50, 100]. */
  lemma PercentBounds(r: Ratio)
    requires Qualifies(r) && r.num <= r.den
    ensures 50 <= Percent(r) <= 100
  {
    var p := Percent(r);
    var d := r.den;
    if p < 50 {
      MulMonotone(2 * d, p + 1, 50);
      assert false;
    }
    if p > 100 {
      MulMonotone(2 * d, 101, p);
      assert false;
    }
  }

  lemma MulMonotone(k: nat, x: int, y: int)
    requires x <= y
    ensures k * x <= k * y
  {
  }

  lemma MulCancel(k: int, x: int, y: int)
    requires k > 0 && x * k > y * k
    ensures x > y
  {
    if x <= y {
      MulMonotone(k, x, y);
      assert false;
    }
  }

  /** `a > b >= c` implies `a > c` for scores with positive denominators. */
  lemma ExceedsPastBound(a: Ratio, b: Ratio, c: Ratio)
    requires a.den > 0 && b.den > 0 && c.den > 0
    requires Exceeds(a, b) && !Exceeds(c, b)
    ensures Exceeds(a, c)
  {
    assert a.num * b.den * c.den > b.num * a.den * c.den by {
      MulMonotone(c.den, b.num * a.den + 1, a.num * b.den);
    }
    assert c.num * b.den * a.den <= b.num * c.den * a.den by {
      MulMonotone(a.den, c.num * b.den, b.num * c.den);
    }
    assert (a.num * c.den) * b.den > (c.num * a.den) * b.den;
    MulCancel(b.den, a.num * c.den, c.num * a.den);
  }

  /** The containment score of every record, in population order. */
  function Scores(pop: seq<Customer>, nameUpper: string): (scores: seq<Ratio>)
    ensures |scores| == |pop|
    ensures forall j :: 0 <= j < |pop| ==> scores[j].num <= scores[j].den
  {
    seq(|pop|, j requires 0 <= j < |pop| => PartialRatio(pop[j], nameUpper))
  }

  /** Among the first `k` scores, `w` is the first to attain the highest
      qualifying one. */
  predicate FirstBest(scores: seq<Ratio>, k: nat, w: nat)
    requires k <= |scores|
  {
    && w < k
    && Qualifies(scores[w])
    && (forall j :: 0 <= j < k && Qualifies(scores[j]) ==> !Exceeds(scores[j], scores[w]))
    && (forall j :: 0 <= j < w && Qualifies(scores[j]) ==> Exceeds(scores[w], scores[j]))
  }

  /** The partial-match loop over the first `k` scores: a record replaces
      the current best only when it qualifies and scores strictly higher. */
  function BestPartial(scores: seq<Ratio>, k: nat): (best: Option<nat>)
    requires k <= |scores|
    ensures best.None? <==> forall j :: 0 <= j < k ==> !Qualifies(scores[j])
    ensures best.Some? ==> FirstBest(scores, k, best.value)
  {
    if k == 0 then None
    else
      var b := BestPartial(scores, k - 1);
      var s := scores[k - 1];
      if Qualifies(s) && (b.None? || Exceeds(s, scores[b.value])) then
        NewBest(scores, k, b);
        Some(k - 1)
      else b
  }

  /** The step of the scan where record `k - 1` takes over from `b`. */
  lemma NewBest(scores: seq<Ratio>, k: nat, b: Option<nat>)
    requires 0 < k <= |scores|
    requires Qualifies(scores[k - 1])
    requires b.None? ==> forall j :: 0 <= j < k - 1 ==> !Qualifies(scores[j])
    requires b.Some? ==> FirstBest(scores, k - 1, b.value) && Exceeds(scores[k - 1], scores[b.value])
    ensures FirstBest(scores, k, k - 1)
  {
    if b.Some? {
      forall j | 0 <= j < k - 1 && Qualifies(scores[j])
        ensures Exceeds(scores[k - 1], scores[j])
      {
        ExceedsPastBound(scores[k - 1], scores[b.value], scores[j]);
      }
    }
  }

  /** There is at most one first-best record. */
  lemma FirstBestUnique(scores: seq<Ratio>, k: nat, w1: nat, w2: nat)
    requires k <= |scores|
    requires FirstBest(scores, k, w1) && FirstBest(scores, k, w2)
    ensures w1 == w2
  {
  }

  /** Matching one row whose name is defined. */
  function MatchRow(row: ImportedRow, pop: seq<Customer>): (r: MatchResult)
    requires row.name.Some?
    ensures r.row == row
    ensures r.kind == NoMatch <==> r.matched.None?
    ensures r.kind == NoMatch <==> r.score.None?
    ensures r.kind == Exact ==> r.score == Some(100)
    ensures r.kind == Partial ==> 50 <= r.score.value <= 100
    ensures r.matched.Some? ==> r.matched.value in pop
  {
    var nameUpper := Upper(row.name.value);
    var byKey := Find(pop, c => KeyMatches(c, row));
    var byName := Find(pop, c => NameMatches(c, nameUpper));
    if HasKey(row) && byKey.Some? then
      MatchResult(row, Some(pop[byKey.value]), Exact, Some(100))
    else if byName.Some? then
      MatchResult(row, Some(pop[byName.value]), Exact, Some(100))
    else
      var scores := Scores(pop, nameUpper);
      match BestPartial(scores, |pop|)
      case None => MatchResult(row, None, NoMatch, None)
      case Some(w) =>
        PercentBounds(scores[w]);
        MatchResult(row, Some(pop[w]), Partial, Some(Percent(scores[w])))
  }

  /** `findMatches`: one result per row, in order, each carrying its row;
      or the failure of the first row without a name. */
  function FindMatches(rows: seq<ImportedRow>, pop: seq<Customer>): (r: Result<seq<MatchResult>, MatchError>)
    ensures r.Err? <==> exists i :: 0 <= i < |rows| && rows[i].name.None?
    ensures r.Err? ==>
      && r.error.rowIndex < |rows| && rows[r.error.rowIndex].name.None?
      && forall j :: 0 <= j < r.error.rowIndex ==> rows[j].name.Some?
    ensures r.Ok? ==> |r.value| == |rows| && forall i :: 0 <= i < |rows| ==> r.value[i].row == rows[i]
    ensures r.Ok? ==> forall i :: 0 <= i < |rows| ==> rows[i].name.Some? && r.value[i] == MatchRow(rows[i], pop)
  {
    match Find(rows, (row: ImportedRow) => row.name.None?)
    case Some(i) => Err(MissingName(i))
    case None => Ok(seq(|rows|, i requires 0 <= i < |rows| => MatchRow(rows[i], pop)))
  }

  /** Identifier matching comes first: the first record passing the
      four-way test wins with score 100, whatever the names. */
  lemma KeyMatchFirst(row: ImportedRow, pop: seq<Customer>, i: nat)
    requires row.name.Some? && HasKey(row)
    requires i < |pop| && KeyMatches(pop[i], row)
    requires forall j :: 0 <= j < i ==> !KeyMatches(pop[j], row)
    ensures MatchRow(row, pop) == MatchResult(row, Some(pop[i]), Exact, Some(100))
  {
    var byKey := Find(pop, c => KeyMatches(c, row));
    assert byKey == Some(i);
  }

  /** Then exact names: the first record whose upper-cased name or stored
      search name equals the upper-cased row name wins with score 100. */
  lemma NameMatchFirst(row: ImportedRow, pop: seq<Customer>, i: nat)
    requires row.name.Some?
    requires !HasKey(row) || forall j :: 0 <= j < |pop| ==> !KeyMatches(pop[j], row)
    requires i < |pop| && NameMatches(pop[i], Upper(row.name.value))
    requires forall j :: 0 <= j < i ==> !NameMatches(pop[j], Upper(row.name.value))
    ensures MatchRow(row, pop) == MatchResult(row, Some(pop[i]), Exact, Some(100))
  {
    var u := Upper(row.name.value);
    var byName := Find(pop, c => NameMatches(c, u));
    assert byName == Some(i);
  }

  /** Otherwise the result is partial exactly when some record reaches the
      50% floor, and then it is the first best record with its rounded score. */
  lemma PartialMatchBest(row: ImportedRow, pop: seq<Customer>)
    requires row.name.Some?
    requires !HasKey(row) || forall j :: 0 <= j < |pop| ==> !KeyMatches(pop[j], row)
    requires forall j :: 0 <= j < |pop| ==> !NameMatches(pop[j], Upper(row.name.value))
    ensures var scores := Scores(pop, Upper(row.name.value));
      MatchRow(row, pop).kind == Partial <==> exists j :: 0 <= j < |pop| && Qualifies(scores[j])
    ensures var scores := Scores(pop, Upper(row.name.value));
      MatchRow(row, pop).kind == Partial ==> exists w: nat ::
        && FirstBest(scores, |pop|, w)
        && MatchRow(row, pop).matched == Some(pop[w])
        && MatchRow(row, pop).score == Some(Percent(scores[w]))
    ensures MatchRow(row, pop).kind != Exact
  {
    var u := Upper(row.name.value);
    var byKey := Find(pop, c => KeyMatches(c, row));
    var byName := Find(pop, c => NameMatches(c, u));
    assert !(HasKey(row) && byKey.Some?);
    assert byName.None?;
    var scores := Scores(pop, u);
    var best := BestPartial(scores, |pop|);
    if best.Some? {
      var w := best.value;
      assert MatchRow(row, pop) == MatchResult(row, Some(pop[w]), Partial, Some(Percent(scores[w])));
      assert Qualifies(scores[w]);
    } else {
      assert MatchRow(row, pop) == MatchResult(row, None, NoMatch, None);
    }
  }
}

=== FILE: optional.dfy ===
/** Failure-carrying values used throughout the model: JavaScript's
    `undefined` becomes `None`, a thrown error becomes `Err`. */
module Optional {

  datatype Option<T> = None | Some(value: T) {
    /** The wrapped value, or `default` when absent. */
    function GetOr(default: T): T {
      if Some? then value else default
    }
  }

  datatype Result<T, E> = Ok(value: T) | Err(error: E)
}

=== FILE: scenarios.dfy ===
/** Worked examples of the matcher on a one-record population. */
module Scenarios {
  import opened Optional
  import opened Text
  import opened Types
  import opened Csv
  import opened Matcher

  function Ivanov(): Customer {
    Customer("WL-100", "Ivanov Ivan", "IVANOV IVAN", "Ivanov I.", None, Some("111"),
      "2024-01-15", "user1", "Internal", "Individual", WhiteList, Active, None, None, None)
  }

  function Row(name: string, customerNo: Option<string>): ImportedRow {
    ImportedRow(Some(name), customerNo, None, map[])
  }

  /** A matching customer number wins over a different name. */
  lemma ExactByNumber()
    ensures MatchRow(Row("Ivanov I.", Some("111")), [Ivanov()]) ==
      MatchResult(Row("Ivanov I.", Some("111")), Some(Ivanov()), Exact, Some(100))
  {
    KeyMatchFirst(Row("Ivanov I.", Some("111")), [Ivanov()], 0);
  }

  /** "IVANOV" inside "IVANOV IVAN": 6 of 11 characters, rounded to 55. */
  lemma PartialBySurname()
    ensures MatchRow(Row("Ivanov", None), [Ivanov()]) ==
      MatchResult(Row("Ivanov", None), Some(Ivanov()), Partial, Some(55))
  {
    assert Upper("Ivanov") == "IVANOV";
    assert Upper("Ivanov Ivan") == "IVANOV IVAN";
    assert StartsWith("IVANOV IVAN", "IVANOV");
    var scores := Scores([Ivanov()], "IVANOV");
    assert scores[0] == Ratio(6, 11);
  }

  /** No containment either way: no match and no score. */
  lemma NoMatchForStranger()
    ensures MatchRow(Row("Smith", None), [Ivanov()]) ==
      MatchResult(Row("Smith", None), None, NoMatch, None)
  {
    StrangerFacts();
    PartialMatchBest(Row("Smith", None), [Ivanov()]);
  }

  lemma StrangerFacts()
    ensures Upper("Smith") == "SMITH"
    ensures !NameMatches(Ivanov(), "SMITH")
    ensures Scores([Ivanov()], "SMITH")[0] == Ratio(0, 1)
  {
    assert Upper("Smith") == "SMITH";
    IvanovUpper();
    StrangerRatio();
  }

  lemma IvanovUpper()
    ensures Upper("Ivanov Ivan") == "IVANOV IVAN"
    ensures Upper("IVANOV IVAN") == "IVANOV IVAN"
  {
  }

  lemma StrangerRatio()
    ensures PartialRatio(Ivanov(), "SMITH") == Ratio(0, 1)
  {
    StrangerNameApart();
    StrangerSearchApart();
    NoOverlapRatio(Ivanov(), "SMITH");
  }

  lemma StrangerNameApart()
    ensures !Overlap(Upper(Ivanov().name), "SMITH")
  {
    IvanovUpper();
    Apart(Upper(Ivanov().name), "SMITH", 0, 1);
  }

  lemma StrangerSearchApart()
    ensures !Overlap(Upper(Ivanov().searchName), "SMITH")
  {
    IvanovUpper();
    Apart(Upper(Ivanov().searchName), "SMITH", 0, 1);
  }

  /** Two strings each lacking a character of the other contain neither. */
  lemma Apart(a: string, b: string, i: nat, j: nat)
    requires i < |b| && b[i] !in a
    requires j < |a| && a[j] !in b
    ensures !Overlap(a, b)
  {
    NotContainedFor(a, b, i);
    NotContainedFor(b, a, j);
  }

  /** Without containment either way the score is the zero ratio `0/1`. */
  lemma NoOverlapRatio(c: Customer, nameUpper: string)
    requires !Overlap(Upper(c.name), nameUpper) && !Overlap(Upper(c.searchName), nameUpper)
    ensures PartialRatio(c, nameUpper) == Ratio(0, 1)
  {
  }

  /** A record without a customer id is an identifier hit for every row that
      carries a customer number, because two undefined ids compare equal. */
  lemma UndefinedIdsMatch(row: ImportedRow, c: Customer)
    requires row.name.Some? && Truthy(row.customerNo) && row.customerId == None
    requires c.customerId == None
    ensures MatchRow(row, [c]) == MatchResult(row, Some(c), Exact, Some(100))
  {
    KeyMatchFirst(row, [c], 0);
  }

  /** A partial match can score 100: the exact-name test compares the raw
      search name, the partial test its upper-cased form. */
  lemma PartialHundred()
    ensures var c := Customer("X-1", "X", "ivan", "X", Some("1"), Some("1"), "2024-01-01", "u",
      "o", "t", WhiteList, Active, None, None, None);
      MatchRow(Row("ivan", None), [c]) == MatchResult(Row("ivan", None), Some(c), Partial, Some(100))
  {
    var c := Customer("X-1", "X", "ivan", "X", Some("1"), Some("1"), "2024-01-01", "u",
      "o", "t", WhiteList, Active, None, None, None);
    assert Upper("ivan") == "IVAN";
    assert Upper("X") == "X";
    NotContainedFor("X", "IVAN", 0);
    NotContainedFor("IVAN", "X", 0);
    assert StartsWith("IVAN", "IVAN");
    var scores := Scores([c], "IVAN");
    assert scores[0] == Ratio(4, 4);
  }

  /** A string lacking one character of `sub` does not contain `sub`. */
  lemma NotContainedFor(s: string, sub: string, k: nat)
    requires k < |sub| && sub[k] !in s
    ensures !Contains(s, sub)
  {
    if Contains(s, sub) {
      ContainsChars(s, sub, k);
    }
  }
}

=== FILE: seqs.dfy ===
/** The array operations the screens rely on (`filter`, `find`, `findIndex`)
    stated once over sequences, with the facts the other modules reuse. */
module Seqs {
  import opened Optional

  /** `Array.prototype.filter`: keeps, in order, the elements satisfying `p`. */
  function Filter<T(==)>(s: seq<T>, p: T -> bool): (r: seq<T>)
    ensures |r| <= |s|
    ensures forall x :: x in r ==> x in s && p(x)
    ensures forall x :: x in s && p(x) ==> x in r
    ensures forall i :: 0 <= i < |r| ==> p(r[i])
  {
    if |s| == 0 then []
    else if p(s[0]) then [s[0]] + Filter(s[1..], p)
    else Filter(s[1..], p)
  }

  /** `Array.prototype.findIndex` (and `find`, through the index): the first
      position satisfying `p`. */
  function Find<T>(s: seq<T>, p: T -> bool): (r: Option<nat>)
    ensures r.Some? ==> r.value < |s| && p(s[r.value])
    ensures r.Some? ==> forall j :: 0 <= j < r.value ==> !p(s[j])
    ensures r.None? <==> forall j :: 0 <= j < |s| ==> !p(s[j])
  {
    if |s| == 0 then None
    else if p(s[0]) then Some(0)
    else match Find(s[1..], p)
      case None => None
      case Some(i) => Some(i + 1)
  }

  /** `a` occurs in `b` in the same order, possibly with gaps. */
  predicate IsSubsequence<T(==)>(a: seq<T>, b: seq<T>)
    decreases |b|
  {
    if |a| == 0 then true
    else if |b| == 0 then false
    else if a[0] == b[0] then IsSubsequence(a[1..], b[1..])
    else IsSubsequence(a, b[1..])
  }

  /** No value occurs twice. */
  predicate Distinct<T(==)>(s: seq<T>) {
    forall i, j :: 0 <= i < j < |s| ==> s[i] != s[j]
  }

  /** Filtering a sequence without repetitions yields one without repetitions. */
  lemma {:induction false} FilterDistinct<T>(s: seq<T>, p: T -> bool)
    ensures Distinct(s) ==> Distinct(Filter(s, p))
  {
    if |s| > 0 && Distinct(s) {
      assert Distinct(s[1..]);
      FilterDistinct(s[1..], p);
      assert s[0] !in s[1..];
    }
  }

  /** The set of values occurring in `s`. */
  function Elements<T(==)>(s: seq<T>): (r: set<T>)
    ensures forall x :: x in r ==> x in s
    ensures forall x :: x in s ==> x in r
  {
    if |s| == 0 then {} else {s[0]} + Elements(s[1..])
  }

  /** Without repetitions, a sequence has as many distinct values as elements. */
  lemma {:induction false} DistinctElements<T>(s: seq<T>)
    requires Distinct(s)
    ensures |Elements(s)| == |s|
  {
    if |s| > 0 {
      assert Distinct(s[1..]);
      DistinctElements(s[1..]);
      assert s[0] !in s[1..];
    }
  }

  lemma {:induction false} ElementsBound<T>(s: seq<T>)
    ensures |Elements(s)| <= |s|
  {
    if |s| > 0 {
      ElementsBound(s[1..]);
    }
  }

  /** A repeated value makes the set of values strictly smaller than the
      sequence. */
  lemma {:induction false} RepeatedElements<T>(s: seq<T>, i: nat, j: nat)
    requires i < j < |s| && s[i] == s[j]
    ensures |Elements(s)| < |s|
  {
    if i == 0 {
      assert s[0] == s[1..][j - 1];
      assert Elements(s) == Elements(s[1..]);
      ElementsBound(s[1..]);
    } else {
      RepeatedElements(s[1..], i - 1, j - 1);
    }
  }

  /** A filter that keeps as many elements as it was given keeps them all. */
  lemma {:induction false} FilterSameLength<T>(s: seq<T>, p: T -> bool)
    ensures |Filter(s, p)| == |s| ==> Filter(s, p) == s
  {
    if |s| > 0 {
      FilterSameLength(s[1..], p);
    }
  }

  lemma {:induction false} FilterAll<T>(s: seq<T>, p: T -> bool)
    requires forall i :: 0 <= i < |s| ==> p(s[i])
    ensures Filter(s, p) == s
  {
    if |s| > 0 {
      FilterAll(s[1..], p);
    }
  }

  lemma {:induction false} FilterNone<T>(s: seq<T>, p: T -> bool)
    requires forall i :: 0 <= i < |s| ==> !p(s[i])
    ensures Filter(s, p) == []
  {
    if |s| > 0 {
      FilterNone(s[1..], p);
    }
  }

  lemma {:induction false} FilterAppend<T>(a: seq<T>, b: seq<T>, p: T -> bool)
    ensures Filter(a + b, p) == Filter(a, p) + Filter(b, p)
  {
    if |a| == 0 {
      assert a + b == b;
    } else {
      assert (a + b)[1..] == a[1..] + b;
      FilterAppend(a[1..], b, p);
    }
  }

  /** Filtering twice with the same predicate changes nothing more. */
  lemma {:induction false} FilterIdempotent<T>(s: seq<T>, p: T -> bool)
    ensures Filter(Filter(s, p), p) == Filter(s, p)
  {
    FilterAll(Filter(s, p), p);
  }

  /** A predicate and its negation split a sequence between them. */
  lemma {:induction false} FilterPartition<T>(s: seq<T>, p: T -> bool, q: T -> bool)
    requires forall i :: 0 <= i < |s| ==> q(s[i]) == !p(s[i])
    ensures |Filter(s, p)| + |Filter(s, q)| == |s|
  {
    if |s| > 0 {
      FilterPartition(s[1..], p, q);
    }
  }

  lemma {:induction false} SubsequenceCons<T>(a: seq<T>, x: T, b: seq<T>)
    requires IsSubsequence(a, b)
    ensures IsSubsequence(a, [x] + b)
    decreases |b|, 1
  {
    if |a| > 0 && a[0] == x {
      SubsequenceTail(a, b);
      assert ([x] + b)[1..] == b;
    } else if |a| > 0 {
      assert ([x] + b)[1..] == b;
    }
  }

  lemma {:induction false} SubsequenceTail<T>(a: seq<T>, b: seq<T>)
    requires |a| > 0 && IsSubsequence(a, b)
    ensures IsSubsequence(a[1..], b)
    decreases |b|, 0
  {
    if a[0] == b[0] {
      if |a[1..]| > 0 {
        SubsequenceCons(a[1..], b[0], b[1..]);
        assert [b[0]] + b[1..] == b;
      }
    } else {
      SubsequenceTail(a, b[1..]);
      if |a[1..]| > 0 {
        SubsequenceCons(a[1..], b[0], b[1..]);
        assert [b[0]] + b[1..] == b;
      }
    }
  }

  /** What `filter` keeps is a subsequence of its input, in the same order. */
  lemma {:induction false} FilterIsSubsequence<T>(s: seq<T>, p: T -> bool)
    ensures IsSubsequence(Filter(s, p), s)
  {
    if |s| > 0 {
      FilterIsSubsequence(s[1..], p);
      if !p(s[0]) {
        SubsequenceCons(Filter(s[1..], p), s[0], s[1..]);
        assert [s[0]] + s[1..] == s;
      }
    }
  }

  /** A subsequence of `s` whose elements all satisfy `p` is no longer than
      `Filter(s, p)`. */
  lemma {:induction false} SubsequenceFilterBound<T>(r: seq<T>, s: seq<T>, p: T -> bool)
    requires IsSubsequence(r, s)
    requires forall i :: 0 <= i < |r| ==> p(r[i])
    ensures |r| <= |Filter(s, p)|
    decreases |s|
  {
    if |r| > 0 {
      if r[0] == s[0] {
        SubsequenceFilterBound(r[1..], s[1..], p);
      } else {
        SubsequenceFilterBound(r, s[1..], p);
      }
    }
  }

  /** `Filter(s, p)` is the only subsequence of `s` of its length whose
      elements all satisfy `p`: a subsequence, the predicate on every
      element, and the count together pin the result down, order and
      repetitions included. */
  lemma {:induction false} FilterUnique<T>(r: seq<T>, s: seq<T>, p: T -> bool)
    requires IsSubsequence(r, s)
    requires forall i :: 0 <= i < |r| ==> p(r[i])
    requires |r| == |Filter(s, p)|
    ensures r == Filter(s, p)
    decreases |s|
  {
    if |s| > 0 && |r| > 0 {
      if r[0] == s[0] {
        FilterUnique(r[1..], s[1..], p);
        assert r == [r[0]] + r[1..];
      } else {
        if p(s[0]) {
          SubsequenceFilterBound(r, s[1..], p);
          assert false;
        }
        FilterUnique(r, s[1..], p);
      }
    }
  }

  lemma {:induction false} SubsequenceRefl<T>(s: seq<T>)
    ensures IsSubsequence(s, s)
  {
    if |s| > 0 {
      SubsequenceRefl(s[1..]);
    }
  }
}

=== FILE: text.dfy ===
/** The JavaScript string operations the core uses: `trim`, `split`/`join`,
    `includes`, `toUpperCase`/`toLowerCase`, the quote-stripping `replace`
    of the CSV parser, and `<` on strings. */
module Text {

  /** The characters `String.prototype.trim` removes (ECMAScript WhiteSpace
      and LineTerminator). */
  predicate IsSpace(c: char) {
    || c == ' ' || c == '\t' || c == '\n' || c == '\r'
    || c == '\U{000B}' || c == '\U{000C}' || c == '\U{00A0}' || c == '\U{1680}'
    || ('\U{2000}' <= c <= '\U{200A}')
    || c == '\U{2028}' || c == '\U{2029}' || c == '\U{202F}' || c == '\U{205F}'
    || c == '\U{3000}' || c == '\U{FEFF}'
  }

  function TrimStart(s: string): (r: string)
    ensures |r| <= |s| && r == s[|s| - |r|..]
    ensures forall i :: 0 <= i < |s| - |r| ==> IsSpace(s[i])
    ensures |r| > 0 ==> !IsSpace(r[0])
  {
    if |s| > 0 && IsSpace(s[0]) then TrimStart(s[1..]) else s
  }

  function TrimEnd(s: string): (r: string)
    ensures |r| <= |s| && r == s[..|r|]
    ensures forall i :: |r| <= i < |s| ==> IsSpace(s[i])
    ensures |r| > 0 ==> !IsSpace(r[|r| - 1])
  {
    if |s| > 0 && IsSpace(s[|s| - 1]) then TrimEnd(s[..|s| - 1]) else s
  }

  /** `String.prototype.trim`: the slice of `s` between its leading and
      trailing white space. */
  function Trim(s: string): (r: string)
    ensures |r| <= |s|
    ensures |r| > 0 ==> !IsSpace(r[0]) && !IsSpace(r[|r| - 1])
  {
    TrimEnd(TrimStart(s))
  }

  /** What `trim` keeps is a slice of its input. */
  lemma TrimSlice(s: string)
    ensures exists i :: OccursAt(s, Trim(s), i)
  {
    var t := TrimStart(s);
    var r := TrimEnd(t);
    var off := |s| - |t|;
    assert r == Trim(s) && t == s[off..] && r == t[..|r|];
    SliceOfSuffix(s, off, |r|);
    assert OccursAt(s, r, off);
  }

  /** A prefix of a suffix is a slice. */
  lemma SliceOfSuffix(s: string, off: nat, n: nat)
    requires off + n <= |s|
    ensures s[off..][..n] == s[off..off + n]
  {
  }

  /** `trim` yields the empty string exactly on all-white-space input. */
  lemma TrimBlank(s: string)
    ensures Trim(s) == "" <==> forall i :: 0 <= i < |s| ==> IsSpace(s[i])
  {
    var t := TrimStart(s);
    var r := TrimEnd(t);
    var off := |s| - |t|;
    if r != "" {
      assert s[off] == r[0];
    }
  }

  /** A string with no white space at either end is its own trim. */
  lemma TrimOfTrimmed(s: string)
    requires |s| > 0 ==> !IsSpace(s[0]) && !IsSpace(s[|s| - 1])
    ensures Trim(s) == s
  {
  }

  /** `.replace(/^"|"$/g, '')`: drops one leading and one trailing double
      quote, each independently of the other. */
  function StripQuotes(s: string): (r: string)
    ensures |s| - 2 <= |r| <= |s|
    ensures |s| > 0 && s[0] != '"' && s[|s| - 1] != '"' ==> r == s
    ensures |s| >= 2 && s[0] == '"' && s[|s| - 1] == '"' ==> r == s[1..|s| - 1]
    ensures |s| > 0 && s[0] == '"' && (|s| == 1 || s[|s| - 1] != '"') ==> r == s[1..]
    ensures |s| > 0 && s[0] != '"' && s[|s| - 1] == '"' ==> r == s[..|s| - 1]
    ensures |r| == |s| ==> r == s
  {
    var a := if |s| > 0 && s[0] == '"' then s[1..] else s;
    if |a| > 0 && a[|a| - 1] == '"' then a[..|a| - 1] else a
  }

  /** Character case mapping, for ASCII and the basic Cyrillic block only. */
  function UpperChar(c: char): char {
    if 'a' <= c <= 'z' then (c as int - 32) as char
    else if '\U{0430}' <= c <= '\U{044F}' then (c as int - 32) as char
    else if '\U{0450}' <= c <= '\U{045F}' then (c as int - 80) as char
    else c
  }

  function LowerChar(c: char): char {
    if 'A' <= c <= 'Z' then (c as int + 32) as char
    else if '\U{0410}' <= c <= '\U{042F}' then (c as int + 32) as char
    else if '\U{0400}' <= c <= '\U{040F}' then (c as int + 80) as char
    else c
  }

  function Upper(s: string): (r: string)
    ensures |r| == |s|
  {
    seq(|s|, i requires 0 <= i < |s| => UpperChar(s[i]))
  }

  function Lower(s: string): (r: string)
    ensures |r| == |s|
  {
    seq(|s|, i requires 0 <= i < |s| => LowerChar(s[i]))
  }

  /** Upper-casing is idempotent and absorbs lower-casing. */
  lemma UpperIdempotent(s: string)
    ensures Upper(Upper(s)) == Upper(s)
    ensures Upper(Lower(s)) == Upper(s)
  {
  }

  predicate StartsWith(s: string, prefix: string) {
    |prefix| <= |s| && s[..|prefix|] == prefix
  }

  /** `String.prototype.includes`. */
  predicate Contains(s: string, sub: string)
    decreases |s|
  {
    StartsWith(s, sub) || (|s| > 0 && Contains(s[1..], sub))
  }

  /** `sub` occurs in `s` starting at position `i`. */
  predicate OccursAt(s: string, sub: string, i: int) {
    0 <= i <= |s| - |sub| && s[i..i + |sub|] == sub
  }

  /** `includes` holds exactly when `sub` occurs at some position of `s`. */
  lemma {:induction false} ContainsAt(s: string, sub: string)
    ensures Contains(s, sub) <==> exists i :: OccursAt(s, sub, i)
    decreases |s|
  {
    if |s| > 0 {
      ContainsAt(s[1..], sub);
      if exists i :: OccursAt(s, sub, i) {
        var i :| OccursAt(s, sub, i);
        if i > 0 {
          assert s[1..][i - 1..i - 1 + |sub|] == s[i..i + |sub|];
          assert OccursAt(s[1..], sub, i - 1);
        }
      }
      if Contains(s[1..], sub) {
        var i :| OccursAt(s[1..], sub, i);
        assert s[1..][i..i + |sub|] == s[i + 1..i + 1 + |sub|];
        assert OccursAt(s, sub, i + 1);
      }
      if StartsWith(s, sub) {
        assert OccursAt(s, sub, 0);
      }
    } else {
      if Contains(s, sub) {
        assert OccursAt(s, sub, 0);
      }
    }
  }

  /** Every character of a contained string occurs in the container: used to
      show that a header does NOT contain a keyword. */
  lemma {:induction false} ContainsChars(s: string, sub: string, k: nat)
    requires Contains(s, sub) && k < |sub|
    ensures sub[k] in s
    decreases |s|
  {
    if StartsWith(s, sub) {
      assert s[k] == sub[k];
    } else {
      ContainsChars(s[1..], sub, k);
    }
  }

  /** `String.prototype.split` with a one-character separator. */
  function Split(s: string, d: char): (r: seq<string>)
    ensures |r| >= 1
    ensures forall i :: 0 <= i < |r| ==> d !in r[i]
    ensures Join(r, d) == s
  {
    if |s| == 0 then [""]
    else
      var rest := Split(s[1..], d);
      if s[0] == d then [""] + rest
      else
        var r := [[s[0]] + rest[0]] + rest[1..];
        assert Join(r, d) == [s[0]] + Join(rest, d) by {
          if |rest| > 1 {
            assert rest == [rest[0]] + rest[1..];
          }
        }
        r
  }

  /** `Array.prototype.join` with a one-character separator. */
  function Join(parts: seq<string>, d: char): string {
    if |parts| == 0 then ""
    else if |parts| == 1 then parts[0]
    else parts[0] + [d] + Join(parts[1..], d)
  }

  /** Splitting text whose first piece has no separator yields that piece
      glued to the first piece of the rest. */
  lemma {:induction false} SplitPrefix(a: string, t: string, d: char)
    requires d !in a
    ensures Split(a + t, d) == [a + Split(t, d)[0]] + Split(t, d)[1..]
  {
    if |a| > 0 {
      SplitPrefix(a[1..], t, d);
      assert (a + t)[1..] == a[1..] + t;
      assert [a[0]] + (a[1..] + Split(t, d)[0]) == a + Split(t, d)[0];
    } else {
      var r := Split(t, d);
      assert a + t == t;
      assert a + r[0] == r[0];
      assert [r[0]] + r[1..] == r;
    }
  }

  /** The first piece of `a + [d] + b` is `a` when `a` holds no separator. */
  lemma SplitCons(a: string, b: string, d: char)
    requires d !in a
    ensures Split(a + [d] + b, d) == [a] + Split(b, d)
  {
    var t := [d] + b;
    SplitPrefix(a, t, d);
    SplitSeparator(b, d);
    var r := Split(t, d);
    assert r[0] == "" && r[1..] == Split(b, d);
    assert a + r[0] == a;
    assert a + [d] + b == a + t;
  }

  lemma SplitSeparator(b: string, d: char)
    ensures Split([d] + b, d) == [""] + Split(b, d)
  {
    assert ([d] + b)[1..] == b;
  }

  /** Splitting undoes joining, when no piece holds the separator. */
  lemma {:induction false} SplitJoin(parts: seq<string>, d: char)
    requires |parts| >= 1
    requires forall i :: 0 <= i < |parts| ==> d !in parts[i]
    ensures Split(Join(parts, d), d) == parts
  {
    if |parts| == 1 {
      SplitPrefix(parts[0], "", d);
      assert parts[0] + "" == parts[0];
    } else {
      SplitJoin(parts[1..], d);
      SplitCons(parts[0], Join(parts[1..], d), d);
      assert [parts[0]] + parts[1..] == parts;
    }
  }

  /** JavaScript's `<` on strings: lexicographic order on characters. A
      Dafny `char` is a Unicode scalar value, where JavaScript compares
      UTF-16 code units; the two orders agree on the Basic Multilingual
      Plane only. */
  predicate LexLess(a: string, b: string)
    decreases |a|
  {
    if |b| == 0 then false
    else if |a| == 0 then true
    else if a[0] != b[0] then a[0] < b[0]
    else LexLess(a[1..], b[1..])
  }

  lemma {:induction false} LexLessIrreflexive(a: string)
    ensures !LexLess(a, a)
  {
    if |a| > 0 {
      LexLessIrreflexive(a[1..]);
    }
  }

  lemma {:induction false} LexLessTransitive(a: string, b: string, c: string)
    requires LexLess(a, b) && LexLess(b, c)
    ensures LexLess(a, c)
    decreases |a|
  {
    if |a| > 0 && a[0] == b[0] && b[0] == c[0] {
      LexLessTransitive(a[1..], b[1..], c[1..]);
    }
  }

  lemma {:induction false} LexLessTotal(a: string, b: string)
    ensures a == b || LexLess(a, b) || LexLess(b, a)
    decreases |a|
  {
    if |a| > 0 && |b| > 0 && a[0] == b[0] {
      LexLessTotal(a[1..], b[1..]);
      if a[1..] == b[1..] {
        assert a == [a[0]] + a[1..] && b == [b[0]] + b[1..];
      }
    }
  }

  lemma LexLessAsymmetric(a: string, b: string)
    ensures !(LexLess(a, b) && LexLess(b, a))
  {
    if LexLess(a, b) && LexLess(b, a) {
      LexLessTransitive(a, b, a);
      LexLessIrreflexive(a);
    }
  }
}

=== FILE: transactions.dfy ===
/** The transaction table: approving or rejecting a transaction removes it
    from the table. */
module Transactions {
  import opened Seqs
  import opened Types

  function OtherThan(transactionNo: string): Transaction -> bool {
    (t: Transaction) => t.transactionNo != transactionNo
  }

  function Carries(transactionNo: string): Transaction -> bool {
    (t: Transaction) => t.transactionNo == transactionNo
  }

  /** Drops every transaction with that number and keeps the rest in order. */
  function RemoveTransaction(ts: seq<Transaction>, transactionNo: string): (r: seq<Transaction>)
    ensures IsSubsequence(r, ts)
    ensures forall t :: t in r ==> t in ts && t.transactionNo != transactionNo
    ensures forall t :: t in ts && t.transactionNo != transactionNo ==> t in r
    ensures |r| == |ts| - |Filter(ts, Carries(transactionNo))|
  {
    FilterIsSubsequence(ts, OtherThan(transactionNo));
    FilterPartition(ts, OtherThan(transactionNo), Carries(transactionNo));
    Filter(ts, OtherThan(transactionNo))
  }

  /** `handleApprove`. */
  function ApproveTransaction(ts: seq<Transaction>, transactionNo: string): (r: seq<Transaction>)
    ensures forall t :: t in r <==> t in ts && t.transactionNo != transactionNo
    ensures IsSubsequence(r, ts)
    ensures |r| == |ts| - |Filter(ts, Carries(transactionNo))|
  {
    RemoveTransaction(ts, transactionNo)
  }

  /** `handleReject`. */
  function RejectTransaction(ts: seq<Transaction>, transactionNo: string): (r: seq<Transaction>)
    ensures forall t :: t in r <==> t in ts && t.transactionNo != transactionNo
    ensures IsSubsequence(r, ts)
    ensures |r| == |ts| - |Filter(ts, Carries(transactionNo))|
  {
    RemoveTransaction(ts, transactionNo)
  }

  /** Rejecting has the same effect on the table as approving. */
  lemma RejectIsApprove(ts: seq<Transaction>, transactionNo: string)
    ensures RejectTransaction(ts, transactionNo) == ApproveTransaction(ts, transactionNo)
  {
  }

  /** Removing twice is removing once. */
  lemma RemoveIdempotent(ts: seq<Transaction>, transactionNo: string)
    ensures RemoveTransaction(RemoveTransaction(ts, transactionNo), transactionNo) ==
      RemoveTransaction(ts, transactionNo)
  {
    FilterIdempotent(ts, OtherThan(transactionNo));
  }

  /** An unknown number leaves the table unchanged. */
  lemma RemoveUnknown(ts: seq<Transaction>, transactionNo: string)
    requires forall i :: 0 <= i < |ts| ==> ts[i].transactionNo != transactionNo
    ensures RemoveTransaction(ts, transactionNo) == ts
  {
    FilterAll(ts, OtherThan(transactionNo));
  }

  /** The table shrinks by exactly the number of transactions carrying the
      number. */
  lemma RemoveCount(ts: seq<Transaction>, transactionNo: string)
    ensures |RemoveTransaction(ts, transactionNo)| == |ts| - |Filter(ts, Carries(transactionNo))|
  {
    FilterPartition(ts, OtherThan(transactionNo), Carries(transactionNo));
  }
}

=== FILE: types.dfy ===
/** The records of the application (customers, transactions, applications and
    customer-check entries), with optional fields as `Option`. */
module Types {
  import opened Optional

  datatype Source = WhiteList | BlackList | CustomerBase
  datatype Status = Active | Deleted
  datatype TxType = Insert | Delete
  datatype AppStatus = Pending | Approved | Rejected

  /** The display text of each enumerated value, as the records store it. */
  function SourceName(s: Source): string {
    match s
    case WhiteList => "White List"
    case BlackList => "Black List"
    case CustomerBase => "Customer Base"
  }

  function TxTypeName(t: TxType): string {
    match t
    case Insert => "Insert"
    case Delete => "Delete"
  }

  /** A record of the reference population (watch lists and customer base). */
  datatype Customer = Customer(
    uqId: string,
    name: string,
    searchName: string,
    customerName: string,
    customerId: Option<string>,
    customerNumber: Option<string>,
    createdDate: string,
    createdUser: string,
    originSource: string,
    kind: string,
    source: Source,
    status: Status,
    passport: Option<string>,
    identificationData: Option<string>,
    otherData: Option<string>)

  /** A transaction awaiting approval. */
  datatype Transaction = Transaction(
    transactionNo: string,
    customerNo: string,
    name: string,
    txType: TxType,
    matchPercent: Option<int>,
    createdDate: string,
    user: string,
    source: Source,
    customer: Option<Customer>)

  /** An application routed through the approval workflow. */
  datatype Application = Application(
    id: string,
    transactionNo: string,
    customerNo: string,
    name: string,
    txType: TxType,
    status: AppStatus,
    matchPercent: Option<int>,
    createdDate: string,
    user: string,
    source: Source,
    customer: Option<Customer>)

  /** One unit of work of the customer-check transaction being prepared. */
  datatype CheckEntry = CheckEntry(
    txNo: string,
    name: string,
    customerNo: string,
    searchName: string,
    createdDate: string,
    createdUser: string,
    source: Source,
    transactionType: TxType,
    originSource: string,
    listGroup: Option<string>)

  /** JavaScript truthiness of an optional string: present and non-empty. */
  predicate Truthy(o: Option<string>) {
    o.Some? && o.value != ""
  }
}

=== FILE: view.dfy ===
/** The table view of the customer-check page: the entries that pass the
    search box and the column filters, stably sorted on one column. */
module View {
  import opened Optional
  import opened Seqs
  import opened Text
  import opened Types

  /** The search box and the three column filters; empty text and `None`
      mean "no filter". */
  datatype ViewFilter = ViewFilter(
    search: string,
    name: string,
    customerNo: string,
    source: Option<Source>)

  datatype SortField =
    | ByTxNo | ByName | ByCustomerNo | BySource | ByTxType | ByOrigin | ByDate | ByUser

  datatype SortDir = Asc | Desc

  datatype SortSpec = SortSpec(field: SortField, dir: SortDir)

  /** The page opens sorted by created date, newest first. */
  const InitialSort := SortSpec(ByDate, Desc)

  const NoFilter := ViewFilter("", "", "", None)

  function FieldText(e: CheckEntry, field: SortField): string {
    match field
    case ByTxNo => e.txNo
    case ByName => e.name
    case ByCustomerNo => e.customerNo
    case BySource => SourceName(e.source)
    case ByTxType => TxTypeName(e.transactionType)
    case ByOrigin => e.originSource
    case ByDate => e.createdDate
    case ByUser => e.createdUser
  }

  /** The value the comparator orders by: dates as written (ISO dates order
      like their timestamps), other columns lower-cased. */
  function SortKey(e: CheckEntry, field: SortField): string {
    if field == ByDate then e.createdDate else Lower(FieldText(e, field))
  }

  /** The filter predicate of the table. */
  predicate Passes(e: CheckEntry, f: ViewFilter) {
    && (f.search == "" ||
        var q := Lower(f.search);
        Contains(Lower(e.name), q) || Contains(Lower(e.customerNo), q)
        || Contains(Lower(e.txNo), q) || Contains(Lower(e.searchName), q))
    && (f.name == "" || Contains(Lower(e.name), Lower(f.name)))
    && (f.customerNo == "" || Contains(Lower(e.customerNo), Lower(f.customerNo)))
    && (f.source.None? || e.source == f.source.value)
  }

  /** An entry passes a filter built from its own name, customer number
      and source, and one searching for its customer number. */
  lemma PassesOwnFields(e: CheckEntry)
    ensures Passes(e, ViewFilter(e.customerNo, e.name, e.customerNo, Some(e.source)))
  {
    assert StartsWith(Lower(e.name), Lower(e.name));
    assert StartsWith(Lower(e.customerNo), Lower(e.customerNo));
  }

  /** `a` must come strictly before `b`: the comparator returns -1. */
  predicate Before(a: CheckEntry, b: CheckEntry, spec: SortSpec) {
    if spec.dir == Asc then LexLess(SortKey(a, spec.field), SortKey(b, spec.field))
    else LexLess(SortKey(b, spec.field), SortKey(a, spec.field))
  }

  /** No entry is placed after one it must precede. */
  predicate Sorted(s: seq<CheckEntry>, spec: SortSpec) {
    forall i, j :: 0 <= i < j < |s| ==> !Before(s[j], s[i], spec)
  }

  /** The entries of `s` whose sort key is `k`, in order. */
  function KeyClass(s: seq<CheckEntry>, field: SortField, k: string): seq<CheckEntry> {
    if |s| == 0 then []
    else (if SortKey(s[0], field) == k then [s[0]] else []) + KeyClass(s[1..], field, k)
  }

  lemma BeforeAsymmetric(a: CheckEntry, b: CheckEntry, spec: SortSpec)
    ensures !(Before(a, b, spec) && Before(b, a, spec))
  {
    LexLessAsymmetric(SortKey(a, spec.field), SortKey(b, spec.field));
  }

  lemma NotBeforeTransitive(a: CheckEntry, b: CheckEntry, c: CheckEntry, spec: SortSpec)
    requires !Before(a, b, spec) && !Before(b, c, spec)
    ensures !Before(a, c, spec)
  {
    var ka, kb, kc := SortKey(a, spec.field), SortKey(b, spec.field), SortKey(c, spec.field);
    LexLessTotal(kb, kc);
    LexLessTotal(ka, kb);
    if Before(a, c, spec) {
      if spec.dir == Asc {
        if LexLess(kc, kb) {
          LexLessTransitive(ka, kc, kb);
        }
      } else {
        if LexLess(kb, kc) {
          LexLessTransitive(kb, kc, ka);
        }
      }
    }
  }

  /** One step of the stable sort: `x` goes after every entry that must
      precede it and before the first one that need not. */
  function InsertByKey(x: CheckEntry, t: seq<CheckEntry>, spec: SortSpec): (r: seq<CheckEntry>)
    ensures multiset(r) == multiset(t) + multiset{x}
  {
    if |t| == 0 then [x]
    else if Before(t[0], x, spec) then
      assert t == [t[0]] + t[1..];
      [t[0]] + InsertByKey(x, t[1..], spec)
    else [x] + t
  }

  lemma {:induction false} InsertSorted(x: CheckEntry, t: seq<CheckEntry>, spec: SortSpec)
    requires Sorted(t, spec)
    ensures Sorted(InsertByKey(x, t, spec), spec)
  {
    if |t| > 0 && Before(t[0], x, spec) {
      assert Sorted(t[1..], spec);
      InsertSorted(x, t[1..], spec);
      var r := InsertByKey(x, t[1..], spec);
      forall j | 0 <= j < |r|
        ensures !Before(r[j], t[0], spec)
      {
        assert r[j] in multiset(r);
        if r[j] == x {
          BeforeAsymmetric(t[0], x, spec);
        } else {
          assert r[j] in multiset(t[1..]);
          var m :| 0 <= m < |t[1..]| && t[1..][m] == r[j];
          assert t[m + 1] == r[j];
        }
      }
      assert InsertByKey(x, t, spec) == [t[0]] + r;
    } else if |t| > 0 {
      forall j | 0 <= j < |t|
        ensures !Before(t[j], x, spec)
      {
        if j > 0 {
          NotBeforeTransitive(t[j], t[0], x, spec);
        }
      }
    }
  }

  function Singleton(e: CheckEntry, field: SortField, k: string): seq<CheckEntry> {
    if SortKey(e, field) == k then [e] else []
  }

  lemma KeyClassCons(e: CheckEntry, s: seq<CheckEntry>, field: SortField, k: string)
    ensures KeyClass([e] + s, field, k) == Singleton(e, field, k) + KeyClass(s, field, k)
  {
    assert ([e] + s)[1..] == s;
  }

  /** Two entries with different keys never both belong to one key class. */
  lemma SwapSingletons(a: CheckEntry, b: CheckEntry, rest: seq<CheckEntry>, field: SortField, k: string)
    requires SortKey(a, field) != SortKey(b, field)
    ensures Singleton(a, field, k) + (Singleton(b, field, k) + rest) ==
      Singleton(b, field, k) + (Singleton(a, field, k) + rest)
  {
    if SortKey(a, field) == k {
      assert Singleton(b, field, k) == [];
    } else {
      assert Singleton(a, field, k) == [];
    }
  }

  /** Inserting keeps the entries of every key class in their order, with
      `x` first among its equals. */
  lemma {:induction false} InsertKeyClass(x: CheckEntry, t: seq<CheckEntry>, spec: SortSpec, k: string)
    ensures KeyClass(InsertByKey(x, t, spec), spec.field, k) ==
      Singleton(x, spec.field, k) + KeyClass(t, spec.field, k)
  {
    var f := spec.field;
    if |t| == 0 {
      KeyClassCons(x, t, f, k);
    } else if Before(t[0], x, spec) {
      var i := InsertByKey(x, t[1..], spec);
      InsertKeyClass(x, t[1..], spec, k);
      KeyClassCons(t[0], i, f, k);
      KeyClassCons(t[0], t[1..], f, k);
      assert [t[0]] + t[1..] == t;
      LexLessIrreflexive(SortKey(x, f));
      SwapSingletons(t[0], x, KeyClass(t[1..], f, k), f, k);
    } else {
      KeyClassCons(x, t, f, k);
    }
  }

  /** `Array.prototype.sort` with the page's comparator (a stable sort). */
  function SortEntries(s: seq<CheckEntry>, spec: SortSpec): (r: seq<CheckEntry>)
    ensures multiset(r) == multiset(s)
    ensures Sorted(r, spec)
  {
    if |s| == 0 then []
    else
      assert s == [s[0]] + s[1..];
      InsertSorted(s[0], SortEntries(s[1..], spec), spec);
      InsertByKey(s[0], SortEntries(s[1..], spec), spec)
  }

  /** Stability: entries with equal sort keys keep their ledger order. */
  lemma {:induction false} SortStable(s: seq<CheckEntry>, spec: SortSpec, k: string)
    ensures KeyClass(SortEntries(s, spec), spec.field, k) == KeyClass(s, spec.field, k)
  {
    if |s| > 0 {
      SortStable(s[1..], spec, k);
      InsertKeyClass(s[0], SortEntries(s[1..], spec), spec, k);
      KeyClassCons(s[0], s[1..], spec.field, k);
      assert [s[0]] + s[1..] == s;
    }
  }

  /** `filteredAndSortedEntries`: exactly the entries that pass the filter,
      sorted; the ledger itself is an input and is not changed. */
  function ViewOf(entries: seq<CheckEntry>, f: ViewFilter, spec: SortSpec): (r: seq<CheckEntry>)
    ensures forall e :: e in r ==> e in entries && Passes(e, f)
    ensures forall e :: e in entries && Passes(e, f) ==> e in r
    ensures multiset(r) == multiset(Filter(entries, e => Passes(e, f)))
    ensures Sorted(r, spec)
    ensures |r| <= |entries|
  {
    var kept := Filter(entries, e => Passes(e, f));
    var r := SortEntries(kept, spec);
    assert forall e :: e in r <==> e in multiset(r);
    assert forall e :: e in kept <==> e in multiset(kept);
    assert |r| == |multiset(r)| == |multiset(kept)| == |kept|;
    r
  }

  /** Within the view, entries with equal sort keys appear in ledger order. */
  lemma ViewStable(entries: seq<CheckEntry>, f: ViewFilter, spec: SortSpec, k: string)
    ensures KeyClass(ViewOf(entries, f, spec), spec.field, k) ==
      KeyClass(Filter(entries, e => Passes(e, f)), spec.field, k)
  {
    SortStable(Filter(entries, e => Passes(e, f)), spec, k);
  }

  /** Without any filter the view holds every entry. */
  lemma UnfilteredView(entries: seq<CheckEntry>, spec: SortSpec)
    ensures multiset(ViewOf(entries, NoFilter, spec)) == multiset(entries)
  {
    FilterAll(entries, e => Passes(e, NoFilter));
  }

  function Flip(d: SortDir): SortDir {
    if d == Asc then Desc else Asc
  }

  /** `handleSort`: a click on the sorted column reverses the direction, a
      click on another column sorts it ascending. */
  function HandleSort(spec: SortSpec, field: SortField): (r: SortSpec)
    ensures r.field == field
    ensures spec.field == field ==> r.dir != spec.dir
    ensures spec.field != field ==> r.dir == Asc
  {
    if spec.field == field then SortSpec(field, Flip(spec.dir)) else SortSpec(field, Asc)
  }

  /** Two clicks on the sorted column restore the sort. */
  lemma HandleSortTwice(spec: SortSpec)
    ensures HandleSort(HandleSort(spec, spec.field), spec.field) == spec
  {
  }
}
